=== FILE: README.md ===
# nexus3-export in Dafny

This project is a Dafny model of the sequential logic of the Nexus 3 exporter. The exporter copies every asset of a Nexus
Repository Manager 3 instance to a local directory. It has three modes:

- **Single repository** (`DownloadRepository`): a resumable export of one repository.
  - Listing tasks walk the asset pages by continuation token, retrying server timeouts with a capped exponential delay.
  - Download tasks place each asset under the export directory and verify its SHA-1.
  - A snapshot of the counters, the processed page tokens and the downloaded paths is saved to two state files and read back on the next run.
- **Auto** (`AutoDownloadRepository`): for every online hosted or proxy repository, list all assets, keep the newest
  primary artifact of each artifact key, and download it with up to three tries.
- **All repositories** (`DownloadAllRepositories`): export each non-excluded, non-proxy repository not yet completed, with
  three attempts each. A status file records the completed and failed repositories and is removed once nothing has failed.

The command line (`Nexus3ExportApplication`) chooses the mode and reads `credentials.properties`.

The modules follow the source:

| module | file | models |
|---|---|---|
| `Basics` | basics.dfy | Java null as `Option`, exceptions as `Result`, a file on disk as `Stored`, order-keeping `Filter` |
| `JavaStrings` | java_strings.dfy | `startsWith`/`endsWith`/`contains`, ASCII `toLowerCase`, `split("/")` and `String.join`, `Long.toString` |
| `Items` | items.dfy | `Item`, `getArtifactKey`, `getVersion` |
| `UnixPaths` | unix_paths.dfy | `Paths.get`, `normalize`, `resolve` on a Unix file system, and the rule that forces an asset path relative |
| `AutoDownload` | auto_download.dfy | `AutoDownloadRepository` |
| `ExportEngine` | engine.dfy | `DownloadRepository` |
| `AllRepositories` | all_repositories.dfy | `DownloadAllRepositories` |
| `Application` | application.dfy | `Nexus3ExportApplication` |

Remote answers are inputs, as sequences of per-request outcomes: HTTP pages, 500 errors, exceptions and fetched SHA-1
digests. File-system facts are inputs too: whether a directory could be created, what a state file held. Sleeps are
returned as lists of delays instead of being performed. The executor's threads are modelled as one queue of tasks run
in submission order. `Balanced` states that the `activeTasks` counter equals the number of queued tasks.

## Model

| member | source | states |
|---|---|---|
| Items.ArtifactKey | src/main/java/fr/kage/nexus3/Item.java:137-182 | a non-null path never yields a null key; the key is null only when both path and id are null |
| Items.ArtifactKeyByFormat | src/main/java/fr/kage/nexus3/Item.java:139-172 | maven2 gives groupId ":" artifactId, npm the name, nuget the id, each only when its fields are present; otherwise the path fallback, never another format's branch |
| Items.MavenVersionsShareKey | src/main/java/fr/kage/nexus3/Item.java:139-146 | two maven2 assets with the same coordinates share a key whatever their versions and paths |
| Items.PathKeyOfFile | src/main/java/fr/kage/nexus3/Item.java:173-181 | the fallback key of `dir/name` is `dir`, so all files of one directory are grouped together |
| Items.PathKeyIsParent | src/main/java/fr/kage/nexus3/Item.java:174-179 | when the fallback drops a segment, the path is the key, "/", a non-empty last segment without "/", then only separators |
| Items.VersionSources | src/main/java/fr/kage/nexus3/Item.java:184-231 | the version is the format's version attribute; otherwise a last path segment matching the version pattern, or the decimal text of `lastUpdated` |
| Items.VersionFallsBackToTimestamp | src/main/java/fr/kage/nexus3/Item.java:219-230 | without attributes and without "/" in the path, the version is decimal text that parses back to `lastUpdated` |
| Items.KeyAndVersionRebuildPath | src/main/java/fr/kage/nexus3/Item.java:173-230 | for a fallback item `dir/name` with a versioned name, key "/" version gives the path back |
| JavaStrings.SplitRebuilds | src/main/java/fr/kage/nexus3/Item.java:175-178 | for a string with a separator that `split("/")` cuts into at least two parts: all parts but the last joined by "/", then "/", the last part and one separator per dropped trailing empty piece rebuild the string |
| JavaStrings.SplitJoinRebuilds | src/main/java/fr/kage/nexus3/Item.java:175-178 | for every string: without a separator `split` gives the string as its only part; otherwise joining the parts and appending the separators that the dropped trailing empty pieces stood for gives the string back |
| JavaStrings.LongToStringRoundTrip | src/main/java/fr/kage/nexus3/Item.java:230 | `String.valueOf` of a long parses back to the same number |
| UnixPaths.NormalizeIsNormalAndIdempotent | src/main/java/fr/kage/nexus3/DownloadRepository.java:369 | `normalize` yields a path without "." names and with ".." only leading; normalizing twice is normalizing once |
| UnixPaths.ForceRelativeAbsoluteIff | src/main/java/fr/kage/nexus3/DownloadRepository.java:369-374 | as written, the forced path is still absolute exactly when the asset path starts with "//"; a relative path is only normalized |
| UnixPaths.DoubleSlashEscapesRoot | src/main/java/fr/kage/nexus3/DownloadRepository.java:369-374 | as written, "//etc" becomes the absolute "/etc", and resolving it ignores the export directory |
| UnixPaths.ForceRelativeFixed | src/main/java/fr/kage/nexus3/DownloadRepository.java:369-374 | the corrected rule always gives a relative normal path, and agrees with the rule as written unless the path starts with "//" |
| UnixPaths.AssetLocationFixed | src/main/java/fr/kage/nexus3/DownloadRepository.java:374 | the corrected location is the export directory followed by the asset's names, and equals the as-written location unless the path starts with "//" |
| AutoDownload.RepositoriesToProcess | src/main/java/fr/kage/nexus3/AutoDownloadRepository.java:104-112 | a repository is processed iff it is online and of type hosted or proxy |
| AutoDownload.DiscoverRepositories | src/main/java/fr/kage/nexus3/AutoDownloadRepository.java:118-150 | a 2xx answer with a body gives exactly the listed repositories; a non-2xx status, a null body or an exception gives an empty list |
| AutoDownload.PrimaryArtifactByFormat | src/main/java/fr/kage/nexus3/AutoDownloadRepository.java:278-319 | null paths are never primary; maven2 excludes exactly ".md5", ".sha1", ".asc" endings and "maven-metadata" (the other listed endings are subsumed); npm, nuget and docker exclusions as listed; other formats keep every path |
| AutoDownload.MaxByLastUpdated | src/main/java/fr/kage/nexus3/AutoDownloadRepository.java:264-266 | the chosen item is in the group, no item of the group is newer, and on a tie the earliest newest item wins |
| AutoDownload.LatestPerKeyIsGroupMaxima | src/main/java/fr/kage/nexus3/AutoDownloadRepository.java:255-273 | the selection has one entry per key of its input, no two with the same key, each the newest of its key's group |
| AutoDownload.FilterLatestVersions | src/main/java/fr/kage/nexus3/AutoDownloadRepository.java:246-276 | exactly one entry per artifact key among primary inputs; each is a primary input with a non-null key, at least as recent as every primary input with that key |
| AutoDownload.CollectAllAssets | src/main/java/fr/kage/nexus3/AutoDownloadRepository.java:190-244 | requests continue only while the previous answer delivered items and a token; the first request has no token, each later one sends the previous token; the assets are every delivered page's items in order |
| AutoDownload.ProcessRepository | src/main/java/fr/kage/nexus3/AutoDownloadRepository.java:165-188 | `assetFound` grows by the number of items on the pages the listing delivered; the submitted downloads have distinct keys and cover every key among those items' primary artifacts, each a primary item with a non-null key that no primary item of its key is newer than; one more repository is processed |
| AutoDownload.RetryNeverRecopies | src/main/java/fr/kage/nexus3/AutoDownloadRepository.java:345-365 | as written, the loop succeeds iff no file was in place and the first fetch is accepted; after a rejected first fetch it stops on try 2 |
| AutoDownload.DownloadLatestAsWritten | src/main/java/fr/kage/nexus3/AutoDownloadRepository.java:332-379 | as written, the asset counts as processed iff the task got past its set-up and the first fetch, into an empty place, is accepted; nothing else changes |
| AutoDownload.CorruptFirstFetchIsNeverRetried | src/main/java/fr/kage/nexus3/AutoDownloadRepository.java:345-365 | fetches "bad" then "good" for an item whose SHA-1 is "good": never counted as written, counted by the corrected loop |
| AutoDownload.AttemptsReplacing | src/main/java/fr/kage/nexus3/AutoDownloadRepository.java:345-365 | the corrected loop stops at the first accepted fetch or the first failed fetch; every earlier try was fetched and rejected |
| AutoDownload.ReplacingSucceedsIff | src/main/java/fr/kage/nexus3/AutoDownloadRepository.java:345-365 | the corrected loop succeeds iff some try of the three is accepted after only rejected fetches |
| AutoDownload.DownloadLatest | src/main/java/fr/kage/nexus3/AutoDownloadRepository.java:332-379 | the corrected task counts the asset iff it got past its set-up and one of at most three tries is accepted; nothing else changes |
| AutoDownload.ReplacingExtendsAsWritten | src/main/java/fr/kage/nexus3/AutoDownloadRepository.java:345-374 | every success of the as-written task is a success of the corrected one |
| ExportEngine.RetryDelaySeconds | src/main/java/fr/kage/nexus3/DownloadRepository.java:321 | the wait after a timeout lies in [30, 300] and is either the cap or 30 times a power of two |
| ExportEngine.RetryDelayDoublesUntilCap | src/main/java/fr/kage/nexus3/DownloadRepository.java:35-37 | each wait doubles the previous one until the 300-second cap, so waits never decrease; the four possible waits are 30, 60, 120 and 240 seconds |
| ExportEngine.TokenKeyCollisions | src/main/java/fr/kage/nexus3/DownloadRepository.java:265 | two tokens share a key iff they are equal or one is null and the other is the text "initial" |
| ExportEngine.FetchPage | src/main/java/fr/kage/nexus3/DownloadRepository.java:271-341 | at most five requests; only a 500 whose message contains the timeout text is retried; every other outcome ends the loop, saving state unless a page was answered; the waits are the capped delays, none after the last request |
| ExportEngine.ScheduleItems | src/main/java/fr/kage/nexus3/DownloadRepository.java:293-301 | every item before the first null path whose path is not downloaded is queued and counted as found, in order; the page completes iff no path is null |
| ExportEngine.ProcessAnswer | src/main/java/fr/kage/nexus3/DownloadRepository.java:289-313 | a page with items queues the new ones; only a page without null paths records its key and queues the next page when there is a token; a null body or item list changes nothing |
| ExportEngine.RunListing | src/main/java/fr/kage/nexus3/DownloadRepository.java:262-341 | a recorded token key skips the task; otherwise the key is recorded exactly when the retry loop delivers a body whose item list has no item without a path; a loop that gives up changes nothing and saves the state, a page with an item lacking a path saves it too, and an answer is handled as `ProcessAnswer` says; the loop's waits come first; no download is recorded and the task counter stays balanced |
| ExportEngine.ListingTwiceIsListingOnce | src/main/java/fr/kage/nexus3/DownloadRepository.java:265-269 | once a page's key is recorded, listing it again changes nothing |
| ExportEngine.ProcessedPageIsRecorded | src/main/java/fr/kage/nexus3/DownloadRepository.java:289-312 | processing a page whose items all have paths records its key, queues exactly its items whose paths are not recorded, in order, then the next page if there is a token |
| ExportEngine.AnsweredPageIsRecorded | src/main/java/fr/kage/nexus3/DownloadRepository.java:289-312 | a page delivered by the retry loop with all paths present records its key, counts and queues its new items, then the next page if there is a token |
| ExportEngine.FetchLoop | src/main/java/fr/kage/nexus3/DownloadRepository.java:394-413 | every try before the one that ends the loop failed or mismatched; the loop ends on a fetch with the expected SHA-1 (verified), on any fetch when the checksum is null (thrown), or on the third try (a mismatch ends without a download, a failure is rethrown); the waits are 1000·k ms after each failed try k before the end, in order |
| ExportEngine.FetchLoopDecidedAt | src/main/java/fr/kage/nexus3/DownloadRepository.java:394-413 | the first try that does not retry decides the loop: a matching fetch is verified at that try and a fetch with a null checksum throws there; if the first two tries retry, a third mismatch exhausts the loop and a third failure throws |
| ExportEngine.AllMismatchesExhaust | src/main/java/fr/kage/nexus3/DownloadRepository.java:395-413 | three mismatching fetches end the loop without a download |
| ExportEngine.RunDownload | src/main/java/fr/kage/nexus3/DownloadRepository.java:360-430 | a recorded path is skipped; for a pending path, a hashable file with the expected SHA-1 is kept, recorded and counted once without a fetch; otherwise, unless a hashable file meets a null checksum, with directories created and a URL the path is recorded exactly when the download loop verifies a fetch, with the loop's tries and waits; mismatches on all tries change nothing; every other case changes nothing and saves state, and a success saves it on every tenth count; a null path or checksum never succeeds |
| ExportEngine.DownloadIsIdempotent | src/main/java/fr/kage/nexus3/DownloadRepository.java:363-366 | after a successful download, running the same download again changes nothing |
| ExportEngine.RecordGrows | src/main/java/fr/kage/nexus3/DownloadRepository.java:382-383 | recording a new path grows the recorded set by exactly one |
| ExportEngine.Step | src/main/java/fr/kage/nexus3/DownloadRepository.java:253-431 | running one task keeps the counter balanced, keeps processed count minus recorded paths constant, and only grows the sets and counters |
| ExportEngine.Drain | src/main/java/fr/kage/nexus3/DownloadRepository.java:219-226 | running the head task with each input in turn while any task is active keeps the counter balanced, keeps processed count minus recorded paths constant, only grows the sets and counters, and stops only when the counter is zero or the inputs are spent |
| ExportEngine.RunUntilQuiescent | src/main/java/fr/kage/nexus3/DownloadRepository.java:219-226 | the waiting loop ends in exactly the engine and task count of the reference run `Drain` |
| ExportEngine.SaveState | src/main/java/fr/kage/nexus3/DownloadRepository.java:157-172 | the snapshot holds both counters and the token keys, and the recorded paths go to the second file |
| ExportEngine.LoadPreviousState | src/main/java/fr/kage/nexus3/DownloadRepository.java:134-155 | a readable state file sets the counters to the saved ones (0 for a missing key) and adds exactly the saved tokens (none for a missing key); the saved paths are then added; an unreadable state file skips both files; a missing one leaves the counters and tokens alone |
| ExportEngine.SaveLoadRoundTrip | src/main/java/fr/kage/nexus3/DownloadRepository.java:134-172 | loading a saved snapshot into a fresh exporter restores both counters and both sets |
| ExportEngine.UnreadableStateSkipsDownloadedList | src/main/java/fr/kage/nexus3/DownloadRepository.java:138-153 | an unreadable state file leaves a readable list of downloaded paths unread |
| ExportEngine.Export | src/main/java/fr/kage/nexus3/DownloadRepository.java:72-114 | a failed set-up does nothing; otherwise the final engine is the reference run `Drain` from the loaded state with the first listing task submitted; the export completes exactly when no task is left active, and then deletes both state files; an interrupted one saves the snapshot |
| ExportEngine.InitialSnapshotEndsAtOnce | src/main/java/fr/kage/nexus3/DownloadRepository.java:260-268 | after loading a snapshot whose tokens hold "initial", the run ends after its one skipped task with nothing queued, so pages pending when the snapshot was taken are never listed |
| AllRepositories.NewExporter | src/main/java/fr/kage/nexus3/DownloadAllRepositories.java:47-51 | the exclusions start as exactly maven-central, maven-public, nuget-hosted and nuget.org-proxy; completed and failed start empty |
| AllRepositories.AddExcluded | src/main/java/fr/kage/nexus3/DownloadAllRepositories.java:329-331 | adds the name and changes no other exclusion, and neither status set |
| AllRepositories.RemoveExcluded | src/main/java/fr/kage/nexus3/DownloadAllRepositories.java:334-336 | removes the name and changes no other exclusion, and neither status set |
| AllRepositories.GetStatus | src/main/java/fr/kage/nexus3/DownloadAllRepositories.java:339-344 | the status map has exactly the keys "completed" and "failed", holding the two sets |
| AllRepositories.FilterRepositories | src/main/java/fr/kage/nexus3/DownloadAllRepositories.java:227-233 | keeps exactly the repositories not excluded, not proxies and not completed |
| AllRepositories.FilterIgnoresFailures | src/main/java/fr/kage/nexus3/DownloadAllRepositories.java:229-231 | the selection does not depend on the failed set, so failed repositories are retried |
| AllRepositories.ExportFrom | src/main/java/fr/kage/nexus3/DownloadAllRepositories.java:271-306 | at most three attempts; success iff the name is not null and the last attempt returned normally; failure uses all three; the wait after failed attempt k is 10·k seconds |
| AllRepositories.SingleExportSucceedsIff | src/main/java/fr/kage/nexus3/DownloadAllRepositories.java:271-306 | an export succeeds iff the name is not null and one of the three attempts returns; a null name fails after waiting 10 and 20 seconds |
| AllRepositories.Record | src/main/java/fr/kage/nexus3/DownloadAllRepositories.java:248-255 | a success adds the name to completed and removes it from failed; a failure adds it to failed and leaves completed alone |
| AllRepositories.ExportRepositories | src/main/java/fr/kage/nexus3/DownloadAllRepositories.java:235-269 | every exported repository ends completed or failed; no other name is added; completed only grows; each repository whose name does not occur again later (the last one in particular) is completed and not failed iff its own export succeeded |
| AllRepositories.ExportStep | src/main/java/fr/kage/nexus3/DownloadAllRepositories.java:235-269 | one more turn of the export loop keeps every promise of `ExportRepositories`: exclusions unchanged, completed only grows, each exported name ends completed or failed, no other name is added, and each repository not named again later carries its own result |
| AllRepositories.RecordKeepsOutcomes | src/main/java/fr/kage/nexus3/DownloadAllRepositories.java:248-255 | recording one more repository's result keeps the recorded outcome of every earlier repository whose name it does not repeat |
| AllRepositories.NullNameNeverCompletes | src/main/java/fr/kage/nexus3/DownloadAllRepositories.java:271-306 | a repository without a name is never marked completed |
| AllRepositories.LoadPreviousStatus | src/main/java/fr/kage/nexus3/DownloadAllRepositories.java:128-145 | a readable status file adds its sets, missing keys as empty; a missing or unreadable one changes nothing |
| AllRepositories.StatusRoundTrip | src/main/java/fr/kage/nexus3/DownloadAllRepositories.java:128-159 | loading a saved status into a new exporter restores both sets |
| AllRepositories.GetRepositoryList | src/main/java/fr/kage/nexus3/DownloadAllRepositories.java:170-204 | a failed request (a RestClientException: an error status or an I/O failure) is retried after exactly 10 s, up to three requests, and the third failure throws; a null body throws at once; otherwise the listed repositories are returned |
| AllRepositories.ListingAfterFailures | src/main/java/fr/kage/nexus3/DownloadAllRepositories.java:174-193 | when the first j requests fail and the next one lists repositories, the result is that list after j + 1 requests and j waits of 10 s |
| AllRepositories.Run | src/main/java/fr/kage/nexus3/DownloadAllRepositories.java:54-115 | a directory failure happens exactly when the base directory is not ready; otherwise the run fails exactly when the listing fails, with its error, saving the loaded status, and stops exactly when the list is empty, leaving the status file alone; else it exports the filtered list from the loaded status, removes the status file iff nothing is left failed, and otherwise saves the exporter's status when any repository was exported and leaves the status file as it was when none was |
| Application.Authenticate | src/main/java/fr/kage/nexus3/Nexus3ExportApplication.java:24 | authentication is on iff the property is present and reads "true" in any letter case |
| Application.LoneQuoteThrows | src/main/java/fr/kage/nexus3/Nexus3ExportApplication.java:75-86 | as written, quote removal throws exactly for a value that is one quote character |
| Application.RemoveTrailingQuotes | src/main/java/fr/kage/nexus3/Nexus3ExportApplication.java:75-86 | null stays null; a value of two or more characters starting and ending with the same quote loses exactly those two; any other value is unchanged |
| Application.QuotesRoundTrip | src/main/java/fr/kage/nexus3/Nexus3ExportApplication.java:79-80 | quoting with either quote character and then removing quotes gives the value back |
| Application.RemoveTrailingQuotesAgrees | src/main/java/fr/kage/nexus3/Nexus3ExportApplication.java:75-86 | wherever the as-written removal returns, the corrected one returns the same |
| Application.LoadCredentials | src/main/java/fr/kage/nexus3/Nexus3ExportApplication.java:56-73 | no file gives no properties; an unreadable file ends the program |
| Application.ReadCredentials | src/main/java/fr/kage/nexus3/Nexus3ExportApplication.java:23-26 | as written, reading the credentials throws exactly when the user name or the password is a lone quote character; otherwise it gives the credentials of the intended rule |
| Application.ReadCredentialsFixed | src/main/java/fr/kage/nexus3/Nexus3ExportApplication.java:23-26 | with the intended quote rule, user name and password are null iff absent and otherwise have one pair of matching quotes removed; `authenticate` reads "true" in any case |
| Application.Run | src/main/java/fr/kage/nexus3/Nexus3ExportApplication.java:16-54 | three arguments ending in "auto" start the auto export of `args[1]`; three or more otherwise start the export of repository `args[1]` into `args[2]`; fewer print the usage; an unreadable credentials file stops either export, and a lone-quote user name or password throws before it starts |
| Application.LonePasswordQuoteStopsRun | src/main/java/fr/kage/nexus3/Nexus3ExportApplication.java:35-38 | a credentials file holding `password="` makes the single-repository run throw instead of starting the export |
| Application.ExtraArgumentMeansSingleRepository | src/main/java/fr/kage/nexus3/Nexus3ExportApplication.java:21-33 | with a fourth argument, "auto" becomes the download directory of a single-repository export |

## Left out

- HTTP requests, `Authenticator`, the repository lister and the mapping of JSON to objects. Each answer or thrown exception is an input.
- SHA-1 hashing. A fetched file is represented by its digest.
- The JSON syntax of the state and status files and the properties file syntax. A file is `Missing`, `Unreadable` or its decoded content. The order of the saved lists and the `lastUpdate` time stamps are not modelled.
- File-system effects: creating and checking directories, copying and deleting assets. Each one's success or failure is an input.
- Writing and deleting the state and status files: `saveState`, `cleanupStateFiles`, `saveStatus` and `cleanupStatusFile` log and ignore their own failures. The model assumes each write and each deletion succeeds.
- Thread pools and the health check. Tasks run one at a time in submission order.
- `Thread.sleep` and interruption. The retry waits and pauses are returned as delay lists, and an interruption during them is not modelled. The interrupted `waitForCompletion` is modelled: `ExportEngine.Export` ends `Interrupted` and saves the snapshot.
- ExportRepositories: the 2000 ms pause after each repository is not returned, and the interrupt that ends the loop early is not modelled.
- RunDownload: places the asset by the corrected rule (`UnixPaths.AssetLocationFixed`), not by the rule as written (`UnixPaths.AssetLocation`). The two differ only for an asset path starting with "//"; that case is listed under Findings. Its contract also states the as-written location for every other path.
- Wall-clock durations and all logging.
- ClassCastException on JSON values of an unexpected type. Attributes are typed string maps.
- A null exception message in the listing retry loop.
- `DownloadRepository.setupDirectories` with no export path, which uses a temporary directory.
- AutoDownload: placement of assets under the repository directory is not modelled. That task resolves the asset path without forcing it relative.
- Integer widths. Counters are unbounded; Java's `long` counters do not overflow in practice.
- `Math.pow` in the delay formula is computed exactly; for five retries its double result is exact.
- Case folding is ASCII only. The patterns compared against lower-cased text contain neither "i" nor "k", the only ASCII letters that non-ASCII characters lower-case into. So `isPrimaryArtifact` and the "true" test of `Boolean.valueOf` are unaffected.
- `Collectors.groupingBy` on a `HashMap` has unspecified iteration order. The model emits one entry per key in order of first occurrence, and states properties that do not depend on the order.
- ".." names are not removed by either placement rule. A path such as "a/../../x" still leaves the export directory after `normalize`. The code never checks for this and the model does not claim it.
- `DownloadAllRepositories` is never called from the command line. It is modelled on its own.
- The single-repository export as a whole (`DownloadRepository.start`) is modelled by `ExportEngine.Export`. The multi-repository driver treats each export's outcome as an input (`started`).

Behaviours of the code worth knowing, all modelled as the code has them:

- Assets are skipped by recorded path only, not by id.
- There is no completion marker.
- The state files are deleted whenever the task count drops to zero, even when a page gave up after five timeouts.
- A null path on a page aborts the rest of that page (`ConcurrentHashMap.contains(null)` throws) and the page is not recorded.
- In the single-repository export a null checksum makes the download fail. In the auto export a null checksum is accepted.
- A continuation token that is literally "initial" is taken for an already-listed first page.
- Only processed token keys are saved, not the queue. A snapshot taken after the first page holds "initial", so the next run skips its only listing task, ends at once and deletes the state files; the pages pending at the snapshot are never listed (`ExportEngine.InitialSnapshotEndsAtOnce`).

## Findings

| source | as written | input that shows it | evidently intended | confidence | as-written member | corrected member |
|---|---|---|---|---|---|---|
| src/main/java/fr/kage/nexus3/Nexus3ExportApplication.java:79-80 | a value that is one quote character passes both the `startsWith` and `endsWith` tests, and `substring(1, 0)` throws StringIndexOutOfBoundsException | `password="` in credentials.properties | strip quotes only from values of at least two characters | not executed | Application.LoneQuoteThrows | Application.RemoveTrailingQuotes |
| src/main/java/fr/kage/nexus3/DownloadRepository.java:369-374 | only the first character of an absolute asset path is dropped, so a path starting with "//" stays absolute and `resolve` returns it unchanged | asset path "//etc" is placed at "/etc" | every leading separator is dropped so the asset stays under the export directory | not executed | UnixPaths.DoubleSlashEscapesRoot | UnixPaths.AssetLocationFixed |
| src/main/java/fr/kage/nexus3/AutoDownloadRepository.java:347 | `Files.copy` without REPLACE_EXISTING: after a checksum mismatch the rejected file stays in place, so the retry's copy throws FileAlreadyExistsException and the task ends; only the first try can succeed | item with SHA-1 "good" whose fetches return "bad" then "good" | each try replaces the file, as DownloadRepository.java:397 does, so a later good fetch is accepted | not executed | AutoDownload.CorruptFirstFetchIsNeverRetried | AutoDownload.DownloadLatest |

=== FILE: all_repositories.dfy ===
/** The multi-repository export (`DownloadAllRepositories`): list the
    repositories, keep the non-excluded, non-proxy ones not yet completed,
    export each with up to three attempts, and keep a status file of completed
    and failed repositories that is removed once nothing has failed. */
module AllRepositories {
  import opened Basics

  const MaxAttempts: nat := 3
  const RetryDelaySeconds: int := 10

  /** A repository of the listing, keeping the fields the export reads. */
  datatype RepositoryInfo = RepositoryInfo(name: Option<string>, format: Option<string>, kind: Option<string>)

  /** The exporter's three name sets (a name may be null). */
  datatype Exporter = Exporter(excluded: set<Option<string>>, completed: set<Option<string>>, failed: set<Option<string>>)

  /** The repositories excluded unless removed from the list. */
  const DefaultExcluded: set<Option<string>> :=
    {Some("maven-central"), Some("maven-public"), Some("nuget-hosted"), Some("nuget.org-proxy")}

  /** A freshly constructed exporter. */
  function NewExporter(): (x: Exporter)
    ensures x.excluded == {Some("maven-central"), Some("maven-public"), Some("nuget-hosted"), Some("nuget.org-proxy")}
    ensures |x.excluded| == 4 && x.completed == {} && x.failed == {}
  {
    Exporter(DefaultExcluded, {}, {})
  }

  /** `addExcludedRepository`. */
  function AddExcluded(x: Exporter, name: Option<string>): (r: Exporter)
    ensures name in r.excluded && r.completed == x.completed && r.failed == x.failed
    ensures forall n :: n != name ==> (n in r.excluded <==> n in x.excluded)
  {
    x.(excluded := x.excluded + {name})
  }

  /** `removeExcludedRepository`. */
  function RemoveExcluded(x: Exporter, name: Option<string>): (r: Exporter)
    ensures name !in r.excluded && r.completed == x.completed && r.failed == x.failed
    ensures forall n :: n != name ==> (n in r.excluded <==> n in x.excluded)
  {
    x.(excluded := x.excluded - {name})
  }

  /** `getStatus`: copies of the completed and failed sets under their keys. */
  function GetStatus(x: Exporter): (m: map<string, set<Option<string>>>)
    ensures m.Keys == {"completed", "failed"}
    ensures m["completed"] == x.completed && m["failed"] == x.failed
  {
    map["completed" := x.completed, "failed" := x.failed]
  }

  /** The three filters of `filterRepositories`. */
  predicate ShouldExport(x: Exporter, repo: RepositoryInfo) {
    repo.name !in x.excluded && repo.kind != Some("proxy") && repo.name !in x.completed
  }

  /** `filterRepositories`: the listed repositories, in order, that are not
      excluded, not proxies and not completed. Failed ones are kept, so they
      are retried. */
  function FilterRepositories(x: Exporter, repos: seq<RepositoryInfo>): (r: seq<RepositoryInfo>)
    ensures forall i :: 0 <= i < |r| ==>
      r[i] in repos && r[i].name !in x.excluded && r[i].kind != Some("proxy") && r[i].name !in x.completed
    ensures forall i :: 0 <= i < |repos| ==>
      (repos[i].name !in x.excluded && repos[i].kind != Some("proxy") && repos[i].name !in x.completed ==> repos[i] in r)
  {
    Filter(repos, Selector(x))
  }

  /** `ShouldExport(x, _)` as a function value. */
  function Selector(x: Exporter): RepositoryInfo -> bool {
    repo => ShouldExport(x, repo)
  }

  /** The selection does not depend on earlier failures. */
  lemma FilterIgnoresFailures(x: Exporter, failed: set<Option<string>>, repos: seq<RepositoryInfo>)
    ensures FilterRepositories(x.(failed := failed), repos) == FilterRepositories(x, repos)
  {
    FilterSameKeep(repos, Selector(x.(failed := failed)), Selector(x));
  }

  // ---------------------------------------------------------------------------
  // Exporting one repository

  /** The result of `exportSingleRepository`: success, the attempts made, and
      the waits between them in seconds. */
  datatype SingleExport = SingleExport(success: bool, attempts: nat, delaysSeconds: seq<int>)

  /** `exportSingleRepository` from attempt `attempt`: `started(name, k)` says
      whether the k-th `DownloadRepository.start` returned normally. A null name
      makes every attempt throw. After a failed attempt k < 3 the loop waits
      10 * k seconds. */
  function ExportFrom(name: Option<string>, started: (string, nat) -> bool, attempt: nat): (r: SingleExport)
    requires 1 <= attempt <= MaxAttempts
    ensures attempt <= r.attempts <= MaxAttempts
    ensures r.success <==> name.Some? && started(name.value, r.attempts)
    ensures forall k :: attempt <= k < r.attempts ==> !(name.Some? && started(name.value, k))
    ensures !r.success ==> r.attempts == MaxAttempts
    ensures |r.delaysSeconds| == r.attempts - attempt
    ensures forall i :: 0 <= i < |r.delaysSeconds| ==> r.delaysSeconds[i] == RetryDelaySeconds * (attempt + i)
    decreases MaxAttempts - attempt
  {
    if name.Some? && started(name.value, attempt) then SingleExport(true, attempt, [])
    else if attempt == MaxAttempts then SingleExport(false, attempt, [])
    else
      var rest := ExportFrom(name, started, attempt + 1);
      rest.(delaysSeconds := [RetryDelaySeconds * attempt] + rest.delaysSeconds)
  }

  function ExportSingleRepository(name: Option<string>, started: (string, nat) -> bool): SingleExport {
    ExportFrom(name, started, 1)
  }

  /** A repository export succeeds exactly when its name is not null and one of
      the three attempts returns normally; the waits before the last attempt
      are 10 and 20 seconds. */
  lemma SingleExportSucceedsIff(name: Option<string>, started: (string, nat) -> bool)
    ensures var r := ExportSingleRepository(name, started);
      && (r.success <==> name.Some? && exists k :: 1 <= k <= MaxAttempts && started(name.value, k))
      && (name.None? ==> !r.success && r.delaysSeconds == [10, 20])
  {
    var r := ExportSingleRepository(name, started);
    if name.Some? && !r.success {
      forall k | 1 <= k <= MaxAttempts ensures !started(name.value, k) {
        assert k < r.attempts || k == r.attempts;
      }
    }
  }

  /** Recording the result of one repository's export. */
  function Record(x: Exporter, name: Option<string>, success: bool): (r: Exporter)
    ensures r.excluded == x.excluded
    ensures success ==> r.completed == x.completed + {name} && r.failed == x.failed - {name}
    ensures !success ==> r.completed == x.completed && r.failed == x.failed + {name}
  {
    if success then x.(completed := x.completed + {name}, failed := x.failed - {name})
    else x.(failed := x.failed + {name})
  }

  /** The names of `repos`. */
  function Names(repos: seq<RepositoryInfo>): set<Option<string>> {
    set i | 0 <= i < |repos| :: repos[i].name
  }

  lemma NamesSnoc(repos: seq<RepositoryInfo>)
    requires repos != []
    ensures Names(repos) == Names(repos[..|repos| - 1]) + {repos[|repos| - 1].name}
  {
    var init := repos[..|repos| - 1];
    forall n | n in Names(repos) ensures n in Names(init) + {repos[|repos| - 1].name} {
      var i :| 0 <= i < |repos| && repos[i].name == n;
      if i < |repos| - 1 {
        assert init[i] == repos[i];
      }
    }
    forall n | n in Names(init) ensures n in Names(repos) {
      var i :| 0 <= i < |init| && init[i].name == n;
      assert repos[i] == init[i];
    }
  }

  /** No repository after position `i` has the same name, so the result of its
      own export is the last one recorded for that name. */
  predicate LastOccurrence(repos: seq<RepositoryInfo>, i: nat)
    requires i < |repos|
  {
    forall j :: i < j < |repos| ==> repos[j].name != repos[i].name
  }

  /** Every repository not named again later is completed, and not failed,
      exactly when its own export succeeded. */
  predicate OutcomesRecorded(r: Exporter, repos: seq<RepositoryInfo>, started: (string, nat) -> bool) {
    forall i :: 0 <= i < |repos| && LastOccurrence(repos, i) ==>
      (ExportSingleRepository(repos[i].name, started).success <==>
         repos[i].name in r.completed && repos[i].name !in r.failed)
  }

  /** Recording the last repository keeps the outcomes of the earlier ones
      whose names it does not repeat. */
  lemma RecordKeepsOutcomes(prefix: Exporter, repos: seq<RepositoryInfo>, started: (string, nat) -> bool)
    requires repos != [] && OutcomesRecorded(prefix, repos[..|repos| - 1], started)
    ensures var last := repos[|repos| - 1];
      OutcomesRecorded(Record(prefix, last.name, ExportSingleRepository(last.name, started).success), repos, started)
  {
    var n := |repos| - 1;
    var last := repos[n];
    var r := Record(prefix, last.name, ExportSingleRepository(last.name, started).success);
    forall i | 0 <= i < |repos| && LastOccurrence(repos, i)
      ensures ExportSingleRepository(repos[i].name, started).success <==>
                repos[i].name in r.completed && repos[i].name !in r.failed
    {
      if i < n {
        assert repos[..n][i] == repos[i];
        assert LastOccurrence(repos[..n], i) by {
          forall j | i < j < n ensures repos[..n][j].name != repos[..n][i].name {
            assert repos[..n][j] == repos[j];
          }
        }
        assert repos[i].name != last.name;
      }
    }
  }

  /** The export's promises after `repos`, starting from `x`. */
  predicate Exported(x: Exporter, repos: seq<RepositoryInfo>, started: (string, nat) -> bool, r: Exporter) {
    && r.excluded == x.excluded
    && x.completed <= r.completed
    && (forall i :: 0 <= i < |repos| ==> repos[i].name in r.completed || repos[i].name in r.failed)
    && r.completed <= x.completed + Names(repos) && r.failed <= x.failed + Names(repos)
    && OutcomesRecorded(r, repos, started)
  }

  /** One turn of the export loop keeps its promises. */
  lemma ExportStep(x: Exporter, prefix: Exporter, repos: seq<RepositoryInfo>, started: (string, nat) -> bool)
    requires repos != [] && Exported(x, repos[..|repos| - 1], started, prefix)
    ensures var last := repos[|repos| - 1];
      Exported(x, repos, started, Record(prefix, last.name, ExportSingleRepository(last.name, started).success))
  {
    assert forall i :: 0 <= i < |repos| - 1 ==> repos[..|repos| - 1][i] == repos[i];
    RecordKeepsOutcomes(prefix, repos, started);
    NamesSnoc(repos);
  }

  /** `exportRepositories`: each selected repository in turn; the status is
      saved after each. */
  function ExportRepositories(x: Exporter, repos: seq<RepositoryInfo>, started: (string, nat) -> bool): (r: Exporter)
    ensures r.excluded == x.excluded
    ensures x.completed <= r.completed
    ensures forall i :: 0 <= i < |repos| ==> repos[i].name in r.completed || repos[i].name in r.failed
    ensures r.completed <= x.completed + Names(repos) && r.failed <= x.failed + Names(repos)
    ensures |repos| > 0 ==>
      var last := repos[|repos| - 1];
      ExportSingleRepository(last.name, started).success <==> last.name in r.completed && last.name !in r.failed
    ensures OutcomesRecorded(r, repos, started)
    decreases |repos|
  {
    if repos == [] then x
    else
      var prefix := ExportRepositories(x, repos[..|repos| - 1], started);
      var last := repos[|repos| - 1];
      ExportStep(x, prefix, repos, started);
      Record(prefix, last.name, ExportSingleRepository(last.name, started).success)
  }

  /** A repository with a null name is never completed by the export. */
  lemma NullNameNeverCompletes(x: Exporter, repos: seq<RepositoryInfo>, started: (string, nat) -> bool)
    requires None !in x.completed
    ensures None !in ExportRepositories(x, repos, started).completed
    decreases |repos|
  {
    if repos != [] {
      NullNameNeverCompletes(x, repos[..|repos| - 1], started);
    }
  }

  // ---------------------------------------------------------------------------
  // Status file

  /** `.nexus-export-all-status.json`; a missing key is `None`. */
  datatype StatusFile = StatusFile(completed: Option<set<Option<string>>>, failed: Option<set<Option<string>>>)

  /** `saveStatus` (the `lastUpdate` time stamp is left out). */
  function SaveStatus(x: Exporter): (f: Stored<StatusFile>)
    ensures f.Present? && f.content.completed == Some(x.completed) && f.content.failed == Some(x.failed)
  {
    Present(StatusFile(Some(x.completed), Some(x.failed)))
  }

  function OrEmpty(s: Option<set<Option<string>>>): set<Option<string>> {
    if s.Some? then s.value else {}
  }

  /** `loadPreviousStatus`: adds the saved sets; an unreadable file is ignored. */
  function LoadPreviousStatus(x: Exporter, f: Stored<StatusFile>): (r: Exporter)
    ensures r.excluded == x.excluded
    ensures !f.Present? ==> r == x
    ensures f.Present? ==>
      r.completed == x.completed + OrEmpty(f.content.completed) && r.failed == x.failed + OrEmpty(f.content.failed)
  {
    if f.Present? then
      x.(completed := x.completed + OrEmpty(f.content.completed), failed := x.failed + OrEmpty(f.content.failed))
    else x
  }

  /** Saving then loading into a new exporter restores both sets. */
  lemma StatusRoundTrip(x: Exporter)
    ensures var r := LoadPreviousStatus(NewExporter(), SaveStatus(x));
      r.completed == x.completed && r.failed == x.failed && r.excluded == DefaultExcluded
  {
  }

  // ---------------------------------------------------------------------------
  // Repository list and the whole run

  /** One request for the repository list: an answer (whose body may be
      null), or a RestClientException (an HTTP error status or an I/O failure). */
  datatype ListAnswer = Listed(body: Option<seq<RepositoryInfo>>) | RequestFailed

  datatype ListError = NullBody | RetriesExhausted

  /** What `getRepositoryList` returns or throws, how many requests it made,
      and the waits between them in seconds. */
  datatype Listing = Listing(result: Result<seq<RepositoryInfo>, ListError>, attempts: nat, delaysSeconds: seq<int>)

  /** `getRepositoryList` from attempt `attempt`: a failed request is retried
      after 10 seconds, and the third failure throws; a null body throws a
      NullPointerException at once, which no retry catches. */
  function GetRepositoryList(answers: seq<ListAnswer>, attempt: nat): (r: Listing)
    requires 1 <= attempt <= MaxAttempts <= |answers|
    ensures attempt <= r.attempts <= MaxAttempts
    ensures forall k :: attempt - 1 <= k < r.attempts - 1 ==> answers[k].RequestFailed?
    ensures r.result.Ok? <==> answers[r.attempts - 1].Listed? && answers[r.attempts - 1].body.Some?
    ensures r.result.Ok? ==> r.result.value == answers[r.attempts - 1].body.value
    ensures r.result == Err(RetriesExhausted) <==> r.attempts == MaxAttempts && answers[r.attempts - 1].RequestFailed?
    ensures |r.delaysSeconds| == r.attempts - attempt
    ensures forall i :: 0 <= i < |r.delaysSeconds| ==> r.delaysSeconds[i] == RetryDelaySeconds
    decreases MaxAttempts - attempt
  {
    match answers[attempt - 1]
    case Listed(body) =>
      if body.Some? then Listing(Ok(body.value), attempt, []) else Listing(Err(NullBody), attempt, [])
    case RequestFailed =>
      if attempt == MaxAttempts then Listing(Err(RetriesExhausted), attempt, [])
      else
        var rest := GetRepositoryList(answers, attempt + 1);
        rest.(delaysSeconds := [RetryDelaySeconds] + rest.delaysSeconds)
  }

  /** The first successful listing wins; every failed request before the
      third one costs exactly 10 seconds. */
  lemma {:induction false} ListingAfterFailures(answers: seq<ListAnswer>, j: nat)
    requires MaxAttempts <= |answers| && j < MaxAttempts
    requires forall k :: 0 <= k < j ==> answers[k].RequestFailed?
    requires answers[j].Listed? && answers[j].body.Some?
    ensures GetRepositoryList(answers, 1) ==
      Listing(Ok(answers[j].body.value), j + 1, seq(j, _ => RetryDelaySeconds))
  {
    var r := GetRepositoryList(answers, 1);
    if r.attempts != j + 1 {
      assert false;
    }
    assert r.delaysSeconds == seq(j, _ => RetryDelaySeconds);
  }

  datatype RunOutcome =
    | DirectoryFailed
    | ListingFailed(error: ListError, status: Stored<StatusFile>)
    | NoRepositories(status: Stored<StatusFile>)
    | Finished(exporter: Exporter, exported: seq<RepositoryInfo>, status: Stored<StatusFile>)

  /** `start`. When the base directory cannot be set up the status cannot be
      written there either; a listing failure saves the loaded status; an empty
      list stops before anything is exported; otherwise the selected
      repositories are exported and the status file is removed exactly when no
      repository is left failed. */
  function Run(baseReady: bool, previous: Stored<StatusFile>, answers: seq<ListAnswer>,
               started: (string, nat) -> bool): (r: RunOutcome)
    requires |answers| >= MaxAttempts
    ensures !baseReady <==> r.DirectoryFailed?
    ensures baseReady ==>
      var listed := GetRepositoryList(answers, 1).result;
      && (r.ListingFailed? <==> listed.Err?)
      && (r.ListingFailed? ==> r.error == listed.error)
      && (r.NoRepositories? <==> listed == Ok([]))
    ensures r.Finished? ==>
      var x := LoadPreviousStatus(NewExporter(), previous);
      && r.exported == FilterRepositories(x, GetRepositoryList(answers, 1).result.value)
      && r.exporter == ExportRepositories(x, r.exported, started)
    ensures r.Finished? && r.exporter.failed != {} && r.exported != [] ==> r.status == SaveStatus(r.exporter)
    ensures r.Finished? && r.exporter.failed != {} && r.exported == [] ==> r.status == previous
    ensures r.ListingFailed? ==> r.status == SaveStatus(LoadPreviousStatus(NewExporter(), previous))
    ensures r.NoRepositories? ==> r.status == previous
    ensures r.Finished? ==>
      && (r.status.Missing? <==> r.exporter.failed == {})
      && (forall i :: 0 <= i < |r.exported| ==>
            r.exported[i].name in r.exporter.completed || r.exported[i].name in r.exporter.failed)
      && (forall i :: 0 <= i < |r.exported| ==> r.exported[i].kind != Some("proxy"))
  {
    if !baseReady then DirectoryFailed
    else
      var x := LoadPreviousStatus(NewExporter(), previous);
      var listed := GetRepositoryList(answers, 1).result;
      if listed.Err? then ListingFailed(listed.error, SaveStatus(x))
      else if listed.value == [] then NoRepositories(previous)
      else
        var selected := FilterRepositories(x, listed.value);
        var done := ExportRepositories(x, selected, started);
        var status := if done.failed == {} then Missing
                      else if selected == [] then previous
                      else SaveStatus(done);
        assert selected == [] ==> done == x;
        assert x.failed != {} ==> previous.Present?;
        Finished(done, selected, status)
  }
}

=== FILE: application.dfy ===
/** The command line entry point (`Nexus3ExportApplication.run`): choose the
    export mode from the arguments, read the optional credentials file, and
    strip one pair of surrounding quotes from the user name and password. */
module Application {
  import opened Basics
  import opened JavaStrings

  /** `credentials.properties` once loaded: its keys and values. */
  type Properties = map<string, string>

  /** What the exporter is built with. */
  datatype Credentials = Credentials(authenticate: bool, username: Option<string>, password: Option<string>)

  /** What `run` does: print the usage and exit with status 1, exit with status
      1 because the credentials file cannot be read, throw out of `run`
      because a user name or password is a lone quote character, or start one
      of the two exports. */
  datatype Launch =
    | Usage
    | CredentialsRejected
    | QuoteFailed
    | AutoMode(url: string, exportPath: string, credentials: Credentials)
    | SingleRepository(url: string, repositoryId: string, downloadPath: string, credentials: Credentials)

  /** `Properties.getProperty(key)`: null for a missing key. */
  function Property(props: Properties, key: string): Option<string> {
    if key in props then Some(props[key]) else None
  }

  /** `Boolean.valueOf(props.getProperty("authenticate", "false"))`: true exactly
      when the property is present and reads "true" in any letter case. */
  function Authenticate(props: Properties): (b: bool)
    ensures b <==> "authenticate" in props && Lower(props["authenticate"]) == "true"
    ensures "authenticate" !in props ==> !b
  {
    var text := if "authenticate" in props then props["authenticate"] else "false";
    Lower(text) == "true"
  }

  /** The value is enclosed in the quote character `q`. */
  predicate QuotedWith(value: string, q: char) {
    StartsWith(value, [q]) && EndsWith(value, [q])
  }

  predicate Quoted(value: string) {
    QuotedWith(value, '"') || QuotedWith(value, '\'')
  }

  /** Java's `substring(begin, end)` fails with a StringIndexOutOfBoundsException. */
  datatype QuoteFailure = IndexOutOfBounds

  /** `removeTrailingQuotes` as written: a value that starts and ends with the
      same quote loses its first and last characters through
      `substring(1, length - 1)`. A value made of one quote character passes
      the test, and `substring(1, 0)` throws. */
  function RemoveTrailingQuotesAsWritten(value: Option<string>): Result<Option<string>, QuoteFailure> {
    if value.None? then Ok(None)
    else if Quoted(value.value) then
      if 1 <= |value.value| - 1 then Ok(Some(value.value[1..|value.value| - 1])) else Err(IndexOutOfBounds)
    else Ok(value)
  }

  /** A value shorter than two characters is quoted exactly when it is a lone
      quote character. */
  lemma ShortQuoted(v: string)
    requires |v| < 2
    ensures Quoted(v) <==> v == "\"" || v == "'"
  {
    if |v| == 1 {
      assert v[..1] == v && v[|v| - 1..] == v;
    }
  }

  /** The as-written code throws exactly for a lone quote character, e.g. a
      credentials line `password="`. */
  lemma LoneQuoteThrows(value: Option<string>)
    ensures RemoveTrailingQuotesAsWritten(value).Err? <==> value == Some("\"") || value == Some("'")
    ensures RemoveTrailingQuotesAsWritten(Some("\"")) == Err(IndexOutOfBounds)
  {
    ShortQuoted("\"");
    if value.Some? && |value.value| < 2 {
      ShortQuoted(value.value);
    }
  }

  /** `removeTrailingQuotes` as evidently intended: one pair of matching
      surrounding quotes is removed; a null stays null and any other value,
      a lone quote included, is kept unchanged. */
  function RemoveTrailingQuotes(value: Option<string>): (r: Option<string>)
    ensures r.None? <==> value.None?
    ensures value.Some? && |value.value| >= 2 && Quoted(value.value) ==>
      |r.value| == |value.value| - 2 && [value.value[0]] + r.value + [value.value[0]] == value.value
    ensures value.Some? && !(|value.value| >= 2 && Quoted(value.value)) ==> r == value
  {
    if value.Some? && |value.value| >= 2 && Quoted(value.value) then Some(value.value[1..|value.value| - 1])
    else value
  }

  /** Quoting a value with either quote character and removing the quotes
      gives the value back. */
  lemma QuotesRoundTrip(s: string, q: char)
    requires q == '"' || q == '\''
    ensures RemoveTrailingQuotes(Some([q] + s + [q])) == Some(s)
  {
    var v := [q] + s + [q];
    assert v[1..|v| - 1] == s;
    assert StartsWith(v, [q]) by { assert v[..1] == [q]; }
    assert EndsWith(v, [q]) by { assert v[|v| - 1..] == [q]; }
  }

  /** Wherever the as-written code returns, the corrected one returns the same. */
  lemma RemoveTrailingQuotesAgrees(value: Option<string>)
    ensures RemoveTrailingQuotesAsWritten(value).Ok? ==>
      RemoveTrailingQuotesAsWritten(value).value == RemoveTrailingQuotes(value)
    ensures RemoveTrailingQuotesAsWritten(value).Err? ==> RemoveTrailingQuotes(value) == value
  {
  }

  /** `loadCredentials`: no file gives no properties; an unreadable file ends
      the program. The properties syntax itself is not modelled. */
  function LoadCredentials(file: Stored<Properties>): (r: Option<Properties>)
    ensures r.None? <==> file.Unreadable?
    ensures file.Missing? ==> r == Some(map[])
    ensures file.Present? ==> r == Some(file.content)
  {
    match file
    case Missing => Some(map[])
    case Unreadable => None
    case Present(props) => Some(props)
  }

  /** A lone quote character, on which the as-written quote removal throws. */
  predicate LoneQuote(value: Option<string>) {
    value == Some("\"") || value == Some("'")
  }

  /** The credentials handed to either export, with the quote rule as
      evidently intended. */
  function ReadCredentialsFixed(props: Properties): (c: Credentials)
    ensures c.authenticate == Authenticate(props)
    ensures c.username == RemoveTrailingQuotes(Property(props, "username"))
    ensures c.password == RemoveTrailingQuotes(Property(props, "password"))
    ensures c.username.None? <==> "username" !in props
    ensures c.password.None? <==> "password" !in props
  {
    Credentials(Authenticate(props), RemoveTrailingQuotes(Property(props, "username")),
                RemoveTrailingQuotes(Property(props, "password")))
  }

  /** The credentials handed to either export, as written: the user name is
      unquoted first, then the password, and a lone quote character in either
      throws. Otherwise the result is the one the intended rule gives. */
  function ReadCredentials(props: Properties): (c: Result<Credentials, QuoteFailure>)
    ensures c.Err? <==> LoneQuote(Property(props, "username")) || LoneQuote(Property(props, "password"))
    ensures c.Ok? ==> c.value == ReadCredentialsFixed(props)
  {
    var user := Property(props, "username");
    var pass := Property(props, "password");
    LoneQuoteThrows(user);
    LoneQuoteThrows(pass);
    RemoveTrailingQuotesAgrees(user);
    RemoveTrailingQuotesAgrees(pass);
    var u := RemoveTrailingQuotesAsWritten(user);
    var w := RemoveTrailingQuotesAsWritten(pass);
    if u.Err? then Err(u.error)
    else if w.Err? then Err(w.error)
    else Ok(Credentials(Authenticate(props), u.value, w.value))
  }

  /** `run`: with exactly three arguments of which the third is "auto", the
      automatic export of everything to `args[1]`; with three or more
      otherwise, the export of repository `args[1]` to `args[2]`; with fewer,
      the usage. The credentials file is read only when an export starts, and
      a lone-quote user name or password throws before it starts. */
  function Run(args: seq<string>, file: Stored<Properties>): (r: Launch)
    ensures r.Usage? <==> |args| < 3
    ensures r.CredentialsRejected? <==> |args| >= 3 && file.Unreadable?
    ensures r.QuoteFailed? <==>
      && |args| >= 3 && file.Present?
      && (LoneQuote(Property(file.content, "username")) || LoneQuote(Property(file.content, "password")))
    ensures r.AutoMode? ==> |args| == 3 && args[2] == "auto"
    ensures r.AutoMode? ==> r.url == args[0] && r.exportPath == args[1]
    ensures r.SingleRepository? ==>
      && !(|args| == 3 && args[2] == "auto")
      && r.url == args[0] && r.repositoryId == args[1] && r.downloadPath == args[2]
    ensures |args| >= 3 && !r.CredentialsRejected? && !r.QuoteFailed? ==>
      (r.AutoMode? <==> |args| == 3 && args[2] == "auto")
    ensures r.AutoMode? || r.SingleRepository? ==> r.credentials == ReadCredentialsFixed(LoadCredentials(file).value)
    ensures (r.AutoMode? || r.SingleRepository?) && file.Missing? ==>
      r.credentials == Credentials(false, None, None)
  {
    if |args| < 3 then Usage
    else
      var props := LoadCredentials(file);
      if props.None? then CredentialsRejected
      else
        var credentials := ReadCredentials(props.value);
        if credentials.Err? then QuoteFailed
        else if |args| == 3 && args[2] == "auto" then AutoMode(args[0], args[1], credentials.value)
        else SingleRepository(args[0], args[1], args[2], credentials.value)
  }

  /** A password line `password="` stops the run with an exception instead of
      starting the export. */
  lemma LonePasswordQuoteStopsRun(url: string, repository: string, directory: string)
    ensures Run([url, repository, directory], Present(map["password" := "\""])) == QuoteFailed
  {
    assert LoneQuote(Property(map["password" := "\""], "password"));
  }

  /** A fourth argument turns "auto" into a download directory: `a b auto c`
      exports repository `b` into `auto`. */
  lemma ExtraArgumentMeansSingleRepository(a: string, b: string, c: string)
    ensures Run([a, b, "auto", c], Missing) == SingleRepository(a, b, "auto", Credentials(false, None, None))
  {
  }
}

=== FILE: auto_download.dfy ===
/** The "auto" export (`AutoDownloadRepository`): pick the repositories worth
    exporting, list every asset of one, keep the latest version of each
    artifact, and download that version with checksum verification. */
module AutoDownload {
  import opened Basics
  import opened JavaStrings
  import opened Items

  /** A repository record of the repository-list endpoint. */
  datatype Repository = Repository(name: Option<string>, format: Option<string>, kind: Option<string>, online: bool)

  /** Online, and hosted or proxy (the types that hold artifacts). */
  predicate IsScheduled(repo: Repository) {
    repo.online && (repo.kind == Some("hosted") || repo.kind == Some("proxy"))
  }

  /** The repositories `run` submits a processing task for, in listing order. */
  function RepositoriesToProcess(repos: seq<Repository>): (r: seq<Repository>)
    ensures forall i :: 0 <= i < |r| ==>
      r[i] in repos && r[i].online && (r[i].kind == Some("hosted") || r[i].kind == Some("proxy"))
    ensures forall i :: 0 <= i < |repos| ==>
      (repos[i].online && (repos[i].kind == Some("hosted") || repos[i].kind == Some("proxy"))) ==> repos[i] in r
    ensures forall i :: 0 <= i < |repos| && !repos[i].online ==> repos[i] !in r
  {
    Filter(repos, IsScheduled)
  }

  /** The answer of the repository-list endpoint: a status and a body, or a thrown exception. */
  datatype RepositoryListAnswer = RepositoryList(status: int, body: Option<seq<Repository>>) | RepositoryListThrew

  predicate Is2xx(status: int) {
    200 <= status < 300
  }

  /** `discoverRepositories`: the listed repositories, or none on any failure. */
  function DiscoverRepositories(answer: RepositoryListAnswer): (r: seq<Repository>)
    ensures answer.RepositoryList? && Is2xx(answer.status) && answer.body.Some? ==> r == answer.body.value
    ensures !(answer.RepositoryList? && Is2xx(answer.status) && answer.body.Some?) ==> r == []
  {
    if answer.RepositoryList? && Is2xx(answer.status) && answer.body.Some? then answer.body.value else []
  }

  // ---------------------------------------------------------------------------
  // isPrimaryArtifact

  /** `isPrimaryArtifact` as written: metadata and checksum files of the
      maven2, npm, nuget and docker formats are not primary; items of any
      other format are, as long as they have a path. */
  predicate IsPrimaryArtifact(item: Item) {
    item.path.Some? &&
    var path := item.path.value;
    var lower := Lower(path);
    && !(IsFormat(item, "maven2") &&
         (EndsWith(lower, ".md5") || EndsWith(lower, ".sha1") ||
          EndsWith(lower, ".asc") || EndsWith(lower, ".asc.md5") ||
          EndsWith(lower, ".asc.sha1") || Contains(lower, "maven-metadata") ||
          EndsWith(lower, ".pom.md5") || EndsWith(lower, ".pom.sha1")))
    && !(IsFormat(item, "npm") &&
         (EndsWith(lower, ".md5") || EndsWith(lower, ".sha1") || Contains(path, "/-/")))
    && !(IsFormat(item, "nuget") &&
         (EndsWith(lower, ".md5") || EndsWith(lower, ".sha1") || EndsWith(lower, ".nuspec")))
    && !(IsFormat(item, "docker") &&
         (Contains(path, "/manifests/") || Contains(path, "/blobs/")))
  }

  /** The four longer maven2 endings end in ".md5" or ".sha1". */
  lemma LongerChecksumEndings(lower: string)
    ensures EndsWith(lower, ".asc.md5") || EndsWith(lower, ".pom.md5") ==> EndsWith(lower, ".md5")
    ensures EndsWith(lower, ".asc.sha1") || EndsWith(lower, ".pom.sha1") ==> EndsWith(lower, ".sha1")
  {
    assert ".asc.md5" == ".asc" + ".md5" && ".pom.md5" == ".pom" + ".md5";
    assert ".asc.sha1" == ".asc" + ".sha1" && ".pom.sha1" == ".pom" + ".sha1";
    if EndsWith(lower, ".asc.md5") { EndsWithLonger(lower, ".asc", ".md5"); }
    if EndsWith(lower, ".pom.md5") { EndsWithLonger(lower, ".pom", ".md5"); }
    if EndsWith(lower, ".asc.sha1") { EndsWithLonger(lower, ".asc", ".sha1"); }
    if EndsWith(lower, ".pom.sha1") { EndsWithLonger(lower, ".pom", ".sha1"); }
  }

  /** For maven2 four of the eight listed tests suffice: ".asc.md5",
      ".asc.sha1", ".pom.md5" and ".pom.sha1" are already caught by ".md5"
      and ".sha1". */
  lemma MavenPrimaryArtifact(item: Item)
    requires item.path.Some? && IsFormat(item, "maven2")
    ensures var lower := Lower(item.path.value);
      IsPrimaryArtifact(item) <==>
        !(EndsWith(lower, ".md5") || EndsWith(lower, ".sha1") || EndsWith(lower, ".asc")
          || Contains(lower, "maven-metadata"))
  {
    LongerChecksumEndings(Lower(item.path.value));
  }

  /** Per-format reading of `isPrimaryArtifact`. */
  lemma PrimaryArtifactByFormat(item: Item)
    ensures item.path.None? ==> !IsPrimaryArtifact(item)
    ensures item.path.Some? && IsFormat(item, "maven2") ==>
      var lower := Lower(item.path.value);
      (IsPrimaryArtifact(item) <==>
        !(EndsWith(lower, ".md5") || EndsWith(lower, ".sha1") || EndsWith(lower, ".asc")
          || Contains(lower, "maven-metadata")))
    ensures item.path.Some? && IsFormat(item, "npm") ==>
      var lower := Lower(item.path.value);
      (IsPrimaryArtifact(item) <==>
        !(EndsWith(lower, ".md5") || EndsWith(lower, ".sha1") || Contains(item.path.value, "/-/")))
    ensures item.path.Some? && IsFormat(item, "nuget") ==>
      var lower := Lower(item.path.value);
      (IsPrimaryArtifact(item) <==>
        !(EndsWith(lower, ".md5") || EndsWith(lower, ".sha1") || EndsWith(lower, ".nuspec")))
    ensures item.path.Some? && IsFormat(item, "docker") ==>
      (IsPrimaryArtifact(item) <==>
        !(Contains(item.path.value, "/manifests/") || Contains(item.path.value, "/blobs/")))
    ensures item.path.Some? && item.format !in {Some("maven2"), Some("npm"), Some("nuget"), Some("docker")} ==>
      IsPrimaryArtifact(item)
  {
    if item.path.Some? && IsFormat(item, "maven2") {
      MavenPrimaryArtifact(item);
    }
  }

  // ---------------------------------------------------------------------------
  // filterLatestVersions

  /** `Comparator.comparingLong(lastUpdated)` under `BinaryOperator.maxBy`: the
      earlier item wins ties. */
  function Later(a: Item, b: Item): Item {
    if a.lastUpdated >= b.lastUpdated then a else b
  }

  /** `versions.stream().max(...)`: the first item whose `lastUpdated` is maximal. */
  function MaxByLastUpdated(xs: seq<Item>): (m: Item)
    requires |xs| > 0
    ensures forall i :: 0 <= i < |xs| ==> xs[i].lastUpdated <= m.lastUpdated
    ensures exists k :: (0 <= k < |xs| && xs[k] == m
      && forall j :: 0 <= j < k ==> xs[j].lastUpdated < m.lastUpdated)
  {
    if |xs| == 1 then xs[0]
    else
      var best := MaxByLastUpdated(xs[..|xs| - 1]);
      assert forall i :: 0 <= i < |xs| - 1 ==> xs[..|xs| - 1][i] == xs[i];
      Later(best, xs[|xs| - 1])
  }

  predicate HasKey(key: Option<string>, item: Item) {
    ArtifactKey(item) == key
  }

  /** The items of `xs` with artifact key `key`, in order (one group of `groupingBy`). */
  function Group(xs: seq<Item>, key: Option<string>): seq<Item> {
    Filter(xs, x => HasKey(key, x))
  }

  /** Position of the entry with key `key` in `best`, if any. */
  function IndexOfKey(best: seq<Item>, key: Option<string>): (r: Option<nat>)
    ensures r.Some? ==> r.value < |best| && ArtifactKey(best[r.value]) == key
    ensures r.None? ==> forall i :: 0 <= i < |best| ==> ArtifactKey(best[i]) != key
  {
    if best == [] then None
    else
      var r := IndexOfKey(best[..|best| - 1], key);
      if r.Some? then r
      else if ArtifactKey(best[|best| - 1]) == key then Some(|best| - 1)
      else None
  }

  /** Adds one item to the latest-per-key list: it replaces the entry of its key
      when strictly later, and opens a new entry for a new key. */
  function Absorb(best: seq<Item>, x: Item): seq<Item> {
    match IndexOfKey(best, ArtifactKey(x))
    case Some(i) => best[i := Later(best[i], x)]
    case None => best + [x]
  }

  /** The grouping and the per-group maximum of `filterLatestVersions`, one
      item at a time, keys in order of first appearance. */
  function LatestPerKey(xs: seq<Item>): seq<Item> {
    if xs == [] then [] else Absorb(LatestPerKey(xs[..|xs| - 1]), xs[|xs| - 1])
  }

  predicate DistinctKeys(best: seq<Item>) {
    forall i, j :: 0 <= i < j < |best| ==> ArtifactKey(best[i]) != ArtifactKey(best[j])
  }

  /** Every entry of `best` is the maximum of its key's group in `xs`. */
  predicate EntriesAreGroupMaxima(xs: seq<Item>, best: seq<Item>) {
    forall i :: 0 <= i < |best| ==>
      |Group(xs, ArtifactKey(best[i]))| > 0 && best[i] == MaxByLastUpdated(Group(xs, ArtifactKey(best[i])))
  }

  /** Every key of `xs` has an entry in `best`. */
  predicate CoversKeys(xs: seq<Item>, best: seq<Item>) {
    forall j :: 0 <= j < |xs| ==> exists i :: 0 <= i < |best| && ArtifactKey(best[i]) == ArtifactKey(xs[j])
  }

  lemma GroupSnoc(xs: seq<Item>, x: Item, key: Option<string>)
    ensures Group(xs + [x], key) == Group(xs, key) + (if ArtifactKey(x) == key then [x] else [])
  {
    assert (xs + [x])[..|xs + [x]| - 1] == xs;
  }

  /** An item of `xs` lies in the group of its key. */
  lemma InOwnGroup(xs: seq<Item>, x: Item)
    requires x in xs
    ensures x in Group(xs, ArtifactKey(x))
  {
    var j :| 0 <= j < |xs| && xs[j] == x;
    assert HasKey(ArtifactKey(x), xs[j]);
  }

  /** The maximum of a group that gains a later element. */
  lemma MaxSnoc(g: seq<Item>, x: Item)
    requires |g| > 0
    ensures MaxByLastUpdated(g + [x]) == Later(MaxByLastUpdated(g), x)
  {
    assert (g + [x])[..|g + [x]| - 1] == g;
  }

  lemma AbsorbKeepsDistinct(prev: seq<Item>, x: Item)
    requires DistinctKeys(prev)
    ensures DistinctKeys(Absorb(prev, x))
  {
  }

  lemma AbsorbKeepsCover(init: seq<Item>, prev: seq<Item>, x: Item)
    requires CoversKeys(init, prev)
    ensures CoversKeys(init + [x], Absorb(prev, x))
  {
    var xs := init + [x];
    var best := Absorb(prev, x);
    var pos: nat;
    match IndexOfKey(prev, ArtifactKey(x))
    case Some(idx) =>
      pos := idx;
      assert |best| == |prev|;
      assert forall i :: 0 <= i < |prev| ==> ArtifactKey(best[i]) == ArtifactKey(prev[i]);
    case None =>
      pos := |prev|;
      assert forall i :: 0 <= i < |prev| ==> best[i] == prev[i];
    assert pos < |best| && ArtifactKey(best[pos]) == ArtifactKey(x);
    forall j | 0 <= j < |xs| ensures exists i :: 0 <= i < |best| && ArtifactKey(best[i]) == ArtifactKey(xs[j]) {
      if j < |init| {
        assert xs[j] == init[j];
        var i :| 0 <= i < |prev| && ArtifactKey(prev[i]) == ArtifactKey(init[j]);
        assert ArtifactKey(best[i]) == ArtifactKey(prev[i]);
      } else {
        assert xs[j] == x;
      }
    }
  }

  /** A key no entry of `prev` carries has an empty group in `init`. */
  lemma UncoveredGroupEmpty(init: seq<Item>, prev: seq<Item>, k: Option<string>)
    requires CoversKeys(init, prev)
    requires forall i :: 0 <= i < |prev| ==> ArtifactKey(prev[i]) != k
    ensures Group(init, k) == []
  {
    forall j | 0 <= j < |init| ensures !HasKey(k, init[j]) {
      var i :| 0 <= i < |prev| && ArtifactKey(prev[i]) == ArtifactKey(init[j]);
    }
    FilterNoneKept(init, x => HasKey(k, x));
  }

  lemma AbsorbKeepsMaxima(init: seq<Item>, prev: seq<Item>, x: Item)
    requires DistinctKeys(prev) && CoversKeys(init, prev) && EntriesAreGroupMaxima(init, prev)
    ensures EntriesAreGroupMaxima(init + [x], Absorb(prev, x))
  {
    var xs := init + [x];
    var best := Absorb(prev, x);
    forall i | 0 <= i < |best|
      ensures |Group(xs, ArtifactKey(best[i]))| > 0 && best[i] == MaxByLastUpdated(Group(xs, ArtifactKey(best[i])))
    {
      var k := ArtifactKey(best[i]);
      GroupSnoc(init, x, k);
      match IndexOfKey(prev, ArtifactKey(x))
      case Some(idx) =>
        if i == idx {
          MaxSnoc(Group(init, k), x);
        } else {
          assert best[i] == prev[i];
        }
      case None =>
        if i == |prev| {
          UncoveredGroupEmpty(init, prev, k);
          assert Group(xs, k) == [x];
        } else {
          assert best[i] == prev[i];
        }
    }
  }

  /** The incremental fold agrees with grouping then taking each group's maximum. */
  lemma {:induction false} LatestPerKeyIsGroupMaxima(xs: seq<Item>)
    ensures var best := LatestPerKey(xs);
      DistinctKeys(best) && CoversKeys(xs, best) && EntriesAreGroupMaxima(xs, best)
    decreases |xs|
  {
    if xs != [] {
      var init := xs[..|xs| - 1];
      var x := xs[|xs| - 1];
      assert xs == init + [x];
      LatestPerKeyIsGroupMaxima(init);
      var prev := LatestPerKey(init);
      AbsorbKeepsDistinct(prev, x);
      AbsorbKeepsCover(init, prev, x);
      AbsorbKeepsMaxima(init, prev, x);
    }
  }

  /** The primary artifacts of a listing, in order. */
  function Primary(items: seq<Item>): seq<Item> {
    Filter(items, IsPrimaryArtifact)
  }

  /** Each entry of the fold dominates every item of its key. */
  lemma LatestDominates(xs: seq<Item>, x: Item, i: nat)
    requires x in xs && i < |LatestPerKey(xs)| && ArtifactKey(x) == ArtifactKey(LatestPerKey(xs)[i])
    ensures x.lastUpdated <= LatestPerKey(xs)[i].lastUpdated
  {
    LatestPerKeyIsGroupMaxima(xs);
    var g := Group(xs, ArtifactKey(x));
    InOwnGroup(xs, x);
    var j :| 0 <= j < |g| && g[j] == x;
  }

  /** The fold's entries are primary artifacts of the listing, each with a key. */
  lemma LatestArePrimary(items: seq<Item>)
    ensures PrimaryEntries(items, LatestPerKey(Primary(items)))
  {
    var primary := Primary(items);
    var r := LatestPerKey(primary);
    LatestPerKeyIsGroupMaxima(primary);
    forall i | 0 <= i < |r| ensures r[i] in items && IsPrimaryArtifact(r[i]) && ArtifactKey(r[i]).Some? {
      var g := Group(primary, ArtifactKey(r[i]));
      var k :| 0 <= k < |g| && g[k] == r[i];
      assert g[k] in primary;
    }
  }

  /** Every primary artifact's key has an entry in the fold. */
  lemma LatestCoversPrimary(items: seq<Item>, x: Item)
    requires x in items && IsPrimaryArtifact(x)
    ensures var r := LatestPerKey(Primary(items));
      exists i :: 0 <= i < |r| && ArtifactKey(r[i]) == ArtifactKey(x)
  {
    var primary := Primary(items);
    LatestPerKeyIsGroupMaxima(primary);
    assert x in primary;
    var j :| 0 <= j < |primary| && primary[j] == x;
  }

  /** `filterLatestVersions`: one item per artifact key among the primary
      artifacts, the one with the greatest `lastUpdated` (the first such on
      ties). Keys come out in order of first appearance, one order the
      source's HashMap may produce. */
  function FilterLatestVersions(items: seq<Item>): (r: seq<Item>)
    ensures PrimaryEntries(items, r)
    ensures DistinctKeys(r)
    ensures CoversPrimaryKeys(items, r)
    ensures EntriesAreLatest(items, r)
    ensures EntriesAreGroupMaxima(Primary(items), r)
  {
    var r := LatestPerKey(Primary(items));
    LatestPerKeyIsGroupMaxima(Primary(items));
    LatestArePrimary(items);
    LatestCoversAll(items);
    LatestDominatesAll(items);
    r
  }

  /** Every entry is a primary artifact of `items` with a non-null key. */
  predicate PrimaryEntries(items: seq<Item>, r: seq<Item>) {
    forall i :: 0 <= i < |r| ==> r[i] in items && IsPrimaryArtifact(r[i]) && ArtifactKey(r[i]).Some?
  }

  /** Every primary artifact of `items` has an entry with its key. */
  predicate CoversPrimaryKeys(items: seq<Item>, r: seq<Item>) {
    forall x :: x in items && IsPrimaryArtifact(x) ==> exists i :: 0 <= i < |r| && ArtifactKey(r[i]) == ArtifactKey(x)
  }

  /** No primary artifact of `items` is newer than the entry with its key. */
  predicate EntriesAreLatest(items: seq<Item>, r: seq<Item>) {
    forall i, x :: (0 <= i < |r| && x in items && IsPrimaryArtifact(x)
      && ArtifactKey(x) == ArtifactKey(r[i])) ==> x.lastUpdated <= r[i].lastUpdated
  }

  lemma LatestCoversAll(items: seq<Item>)
    ensures CoversPrimaryKeys(items, LatestPerKey(Primary(items)))
  {
    var r := LatestPerKey(Primary(items));
    forall x | x in items && IsPrimaryArtifact(x)
      ensures exists i :: 0 <= i < |r| && ArtifactKey(r[i]) == ArtifactKey(x)
    {
      LatestCoversPrimary(items, x);
    }
  }

  lemma LatestDominatesAll(items: seq<Item>)
    ensures EntriesAreLatest(items, LatestPerKey(Primary(items)))
  {
    var r := LatestPerKey(Primary(items));
    forall i, x | 0 <= i < |r| && x in items && IsPrimaryArtifact(x) && ArtifactKey(x) == ArtifactKey(r[i])
      ensures x.lastUpdated <= r[i].lastUpdated
    {
      assert x in Primary(items);
      LatestDominates(Primary(items), x, i);
    }
  }

  // ---------------------------------------------------------------------------
  // collectAllAssets

  /** The answer to one request of the listing loop. */
  datatype ListingAnswer = Listing(status: int, body: Option<Assets>) | ListingThrew

  /** The answer carries a page of items (2xx, non-null body and items). */
  predicate Delivers(a: ListingAnswer) {
    a.Listing? && Is2xx(a.status) && a.body.Some? && a.body.value.items.Some?
  }

  /** The loop asks for another page after this answer. */
  predicate Continues(a: ListingAnswer) {
    Delivers(a) && a.body.value.continuationToken.Some?
  }

  function PageItems(a: ListingAnswer): seq<Item> {
    if Delivers(a) then a.body.value.items.value else []
  }

  /** The items of the first `n` answers, in order. */
  function Gathered(answers: seq<ListingAnswer>, n: nat): seq<Item>
    requires n <= |answers|
  {
    if n == 0 then [] else Gathered(answers, n - 1) + PageItems(answers[n - 1])
  }

  /** A listing that has not ended at a continuing page ends later. */
  lemma EndsLater(answers: seq<ListingAnswer>, from: nat)
    requires from < |answers| && Ends(answers, from) && Continues(answers[from])
    ensures from + 1 < |answers| && Ends(answers, from + 1)
  {
    var j :| from <= j < |answers| && !Continues(answers[j]);
    assert j != from;
  }

  lemma GatheredRegroups(before: seq<Item>, page: seq<Item>, rest: seq<Item>, after: seq<Item>)
    requires (before + page) + rest == after
    ensures before + (page + rest) == after
  {
  }

  /** What the loop produced: the assets, how many requests it made, and the
      continuation token sent with each request (null for the first). */
  datatype Collection = Collection(assets: seq<Item>, pages: nat, tokensSent: seq<Option<string>>)

  /** The listing ends somewhere in these answers. */
  predicate Ends(answers: seq<ListingAnswer>, from: nat) {
    exists j :: from <= j < |answers| && !Continues(answers[j])
  }

  function CollectFrom(answers: seq<ListingAnswer>, from: nat, token: Option<string>): (r: Collection)
    requires from < |answers| && Ends(answers, from)
    ensures from + 1 <= from + r.pages <= |answers|
    ensures forall k :: from <= k < from + r.pages - 1 ==> Continues(answers[k])
    ensures !Continues(answers[from + r.pages - 1])
    ensures |r.tokensSent| == r.pages && r.tokensSent[0] == token
    ensures forall k :: 1 <= k < r.pages ==>
      r.tokensSent[k] == answers[from + k - 1].body.value.continuationToken
    ensures Gathered(answers, from) + r.assets == Gathered(answers, from + r.pages)
    decreases |answers| - from
  {
    var a := answers[from];
    if Continues(a) then
      EndsLater(answers, from);
      var rest := CollectFrom(answers, from + 1, a.body.value.continuationToken);
      GatheredRegroups(Gathered(answers, from), PageItems(a), rest.assets, Gathered(answers, from + 1 + rest.pages));
      Collection(PageItems(a) + rest.assets, rest.pages + 1, [token] + rest.tokensSent)
    else
      Collection(PageItems(a), 1, [token])
  }

  /** `collectAllAssets`: requests pages while the last answer delivered items
      and a continuation token; a non-2xx status, a null body or item list, or
      an exception stops the loop and keeps what was gathered. */
  function CollectAllAssets(answers: seq<ListingAnswer>): (r: Collection)
    requires |answers| > 0 && Ends(answers, 0)
    ensures 1 <= r.pages <= |answers|
    ensures forall k :: 0 <= k < r.pages - 1 ==> Continues(answers[k])
    ensures !Continues(answers[r.pages - 1])
    ensures r.assets == Gathered(answers, r.pages)
    ensures |r.tokensSent| == r.pages && r.tokensSent[0].None?
    ensures forall k :: 1 <= k < r.pages ==>
      r.tokensSent[k] == answers[k - 1].body.value.continuationToken
  {
    var r := CollectFrom(answers, 0, None);
    assert Gathered(answers, 0) + r.assets == r.assets;
    r
  }

  // ---------------------------------------------------------------------------
  // Repository processing and downloads

  /** The counters of the auto export. */
  datatype Progress = Progress(assetProcessed: int, assetFound: int, repositoriesProcessed: int)

  /** `ProcessRepositoryTask.run`: collect the assets of every page the
      listing delivered, count them as found, and submit one download per
      artifact key among the primary artifacts: the newest of its key. */
  function ProcessRepository(p: Progress, answers: seq<ListingAnswer>): (r: (Progress, seq<Item>))
    requires |answers| > 0 && Ends(answers, 0)
    ensures var c := CollectAllAssets(answers);
      && r.0.assetFound == p.assetFound + |Gathered(answers, c.pages)|
      && PrimaryEntries(Gathered(answers, c.pages), r.1)
      && DistinctKeys(r.1)
      && CoversPrimaryKeys(Gathered(answers, c.pages), r.1)
      && EntriesAreLatest(Gathered(answers, c.pages), r.1)
    ensures r.0.repositoriesProcessed == p.repositoriesProcessed + 1
    ensures r.0.assetProcessed == p.assetProcessed
  {
    var c := CollectAllAssets(answers);
    (p.(assetFound := p.assetFound + |c.assets|,
        repositoriesProcessed := p.repositoriesProcessed + 1),
     FilterLatestVersions(c.assets))
  }

  const MaxAttempts: nat := 3

  /** The downloaded content is accepted: it has the expected SHA-1, or the
      item carries no checksum or no SHA-1 to compare with. */
  predicate Accepts(item: Item, digest: string) {
    item.checksum.None? || item.checksum.value.sha1.None? || item.checksum.value.sha1 == Some(digest)
  }

  /** The download loop from try `tryCount` as written: `Files.copy` without
      REPLACE_EXISTING throws once a file is in place (`fileExists`), and any
      IOException leaves the loop and the task. Returns whether the download
      was accepted, and the last try made. */
  function AttemptsAsWritten(item: Item, fetches: seq<Fetch>, tryCount: nat, fileExists: bool): (r: (bool, nat))
    requires 1 <= tryCount <= MaxAttempts <= |fetches|
    ensures tryCount <= r.1 <= MaxAttempts
    decreases MaxAttempts - tryCount
  {
    match fetches[tryCount - 1]
    case FetchFailed => (false, tryCount)
    case Fetched(d) =>
      if fileExists then (false, tryCount)
      else if Accepts(item, d) then (true, tryCount)
      else if tryCount == MaxAttempts then (false, tryCount)
      else AttemptsAsWritten(item, fetches, tryCount + 1, true)
  }

  /** As written, only the first try can succeed: a rejected copy stays on
      disk, so the retry's `Files.copy` fails and ends the task. */
  lemma RetryNeverRecopies(item: Item, fetches: seq<Fetch>, fileExists: bool)
    requires |fetches| >= MaxAttempts
    ensures AttemptsAsWritten(item, fetches, 1, fileExists).0 <==>
      !fileExists && fetches[0].Fetched? && Accepts(item, fetches[0].digest)
    ensures !fileExists && fetches[0].Fetched? && !Accepts(item, fetches[0].digest) ==>
      AttemptsAsWritten(item, fetches, 1, fileExists) == (false, 2)
  {
  }

  /** The download loop from try `tryCount` as evidently intended: each try
      replaces whatever file is in place, so only the fetched content matters. */
  function AttemptsReplacing(item: Item, fetches: seq<Fetch>, tryCount: nat): (r: (bool, nat))
    requires 1 <= tryCount <= MaxAttempts <= |fetches|
    ensures tryCount <= r.1 <= MaxAttempts
    ensures r.0 <==> fetches[r.1 - 1].Fetched? && Accepts(item, fetches[r.1 - 1].digest)
    ensures !r.0 && r.1 < MaxAttempts ==> fetches[r.1 - 1].FetchFailed?
    ensures forall k :: tryCount - 1 <= k < r.1 - 1 ==>
      fetches[k].Fetched? && !Accepts(item, fetches[k].digest)
    decreases MaxAttempts - tryCount
  {
    match fetches[tryCount - 1]
    case FetchFailed => (false, tryCount)
    case Fetched(d) =>
      if Accepts(item, d) then (true, tryCount)
      else if tryCount == MaxAttempts then (false, tryCount)
      else AttemptsReplacing(item, fetches, tryCount + 1)
  }

  /** Try `n` delivered accepted content, every earlier one having been fetched
      but rejected. */
  predicate SucceedsOnTry(item: Item, fetches: seq<Fetch>, n: nat)
    requires 1 <= n <= |fetches|
  {
    && fetches[n - 1].Fetched? && Accepts(item, fetches[n - 1].digest)
    && forall k :: 0 <= k < n - 1 ==> fetches[k].Fetched? && !Accepts(item, fetches[k].digest)
  }

  /** A success on try `n` is what the replacing loop reports from any earlier try `t`. */
  lemma {:induction false} ReplacingFindsSuccess(item: Item, fetches: seq<Fetch>, t: nat, n: nat)
    requires 1 <= t <= n <= MaxAttempts <= |fetches|
    ensures SucceedsOnTry(item, fetches, n) ==> AttemptsReplacing(item, fetches, t) == (true, n)
    decreases n - t
  {
    if t < n {
      ReplacingFindsSuccess(item, fetches, t + 1, n);
    }
  }

  /** The replacing loop succeeds exactly when some try delivered accepted
      content after rejected fetches only. */
  lemma ReplacingSucceedsIff(item: Item, fetches: seq<Fetch>)
    requires |fetches| >= MaxAttempts
    ensures AttemptsReplacing(item, fetches, 1).0 <==>
      exists n :: 1 <= n <= MaxAttempts && SucceedsOnTry(item, fetches, n)
  {
    var (ok, m) := AttemptsReplacing(item, fetches, 1);
    if ok {
      assert SucceedsOnTry(item, fetches, m);
    } else {
      forall n | 1 <= n <= MaxAttempts ensures !SucceedsOnTry(item, fetches, n) {
        ReplacingFindsSuccess(item, fetches, 1, n);
      }
    }
  }

  /** What the download task needs before its loop: the asset's directories
      were created, and `URI.create` received a download URL (a null one
      throws a NullPointerException that ends the task). */
  predicate Prepared(item: Item, directoriesCreated: bool) {
    item.path.Some? && directoriesCreated && item.downloadUrl.Some?
  }

  /** `DownloadItemTask.run` as written: the asset counts as processed exactly
      when the first try is accepted and no file was in place. */
  function DownloadLatestAsWritten(p: Progress, item: Item, directoriesCreated: bool, fileExists: bool,
                                   fetches: seq<Fetch>): (r: Progress)
    requires |fetches| >= MaxAttempts
    ensures r.assetFound == p.assetFound && r.repositoriesProcessed == p.repositoriesProcessed
    ensures r.assetProcessed == p.assetProcessed + 1 <==>
      Prepared(item, directoriesCreated) && !fileExists && fetches[0].Fetched? && Accepts(item, fetches[0].digest)
    ensures r.assetProcessed != p.assetProcessed + 1 ==> r == p
  {
    if !Prepared(item, directoriesCreated) then p
    else
      RetryNeverRecopies(item, fetches, fileExists);
      if AttemptsAsWritten(item, fetches, 1, fileExists).0 then p.(assetProcessed := p.assetProcessed + 1) else p
  }

  /** A concrete case: the first fetch is corrupt and the second is good. As
      written the asset is never counted; the replacing loop counts it on try 2. */
  lemma CorruptFirstFetchIsNeverRetried(p: Progress)
    ensures var item := Item(Some("g/a/1.0/a-1.0.jar"), None, Some("maven2"), Some("http://h/a-1.0.jar"),
                             Some(Checksum(Some("good"))), 0, None);
      var fetches := [Fetched("bad"), Fetched("good"), Fetched("good")];
      && DownloadLatestAsWritten(p, item, true, false, fetches) == p
      && DownloadLatest(p, item, true, fetches).assetProcessed == p.assetProcessed + 1
  {
    var item := Item(Some("g/a/1.0/a-1.0.jar"), None, Some("maven2"), Some("http://h/a-1.0.jar"),
                     Some(Checksum(Some("good"))), 0, None);
    var fetches := [Fetched("bad"), Fetched("good"), Fetched("good")];
    assert SucceedsOnTry(item, fetches, 2);
  }

  /** `DownloadItemTask.run` with each try replacing the file in place: counts
      the asset as processed exactly when one of at most three tries delivered
      accepted content, every earlier one having been fetched but rejected. */
  function DownloadLatest(p: Progress, item: Item, directoriesCreated: bool, fetches: seq<Fetch>): (r: Progress)
    requires |fetches| >= MaxAttempts
    ensures r.assetFound == p.assetFound && r.repositoriesProcessed == p.repositoriesProcessed
    ensures r.assetProcessed != p.assetProcessed + 1 ==> r == p
    ensures r.assetProcessed == p.assetProcessed + 1 <==>
      Prepared(item, directoriesCreated) && exists n :: 1 <= n <= MaxAttempts && SucceedsOnTry(item, fetches, n)
  {
    if !Prepared(item, directoriesCreated) then p
    else
      ReplacingSucceedsIff(item, fetches);
      if AttemptsReplacing(item, fetches, 1).0 then p.(assetProcessed := p.assetProcessed + 1) else p
  }

  /** The two loops agree whenever the first try is accepted; the replacing one
      only adds successes on later tries. */
  lemma ReplacingExtendsAsWritten(p: Progress, item: Item, directoriesCreated: bool, fetches: seq<Fetch>)
    requires |fetches| >= MaxAttempts
    ensures DownloadLatestAsWritten(p, item, directoriesCreated, false, fetches).assetProcessed == p.assetProcessed + 1
      ==> DownloadLatest(p, item, directoriesCreated, fetches).assetProcessed == p.assetProcessed + 1
  {
    if Prepared(item, directoriesCreated) && fetches[0].Fetched? && Accepts(item, fetches[0].digest) {
      assert SucceedsOnTry(item, fetches, 1);
    }
  }
}

=== FILE: basics.dfy ===
/** Small shared datatypes: Java's nullable references as `Option`, thrown
    exceptions as `Result`, and an order-preserving filter for `stream().filter`. */
module Basics {

  /** A Java reference that may be null. */
  datatype Option<+T> = None | Some(value: T)

  /** A call that either returns a value or throws. */
  datatype Result<+T, +E> = Ok(value: T) | Err(error: E)

  /** A file on disk: missing, present but unreadable (an exception while
      reading or parsing it), or holding `content`. */
  datatype Stored<+T> = Missing | Unreadable | Present(content: T)

  /** `xs.stream().filter(keep).collect(toList())`: keeps, in order, the elements satisfying `keep`. */
  function Filter<T>(xs: seq<T>, keep: T -> bool): (r: seq<T>)
    ensures |r| <= |xs|
    ensures forall i :: 0 <= i < |r| ==> r[i] in xs && keep(r[i])
    ensures forall i :: 0 <= i < |xs| && keep(xs[i]) ==> xs[i] in r
  {
    if xs == [] then []
    else
      var init := Filter(xs[..|xs| - 1], keep);
      var last := xs[|xs| - 1];
      assert forall i :: 0 <= i < |xs| - 1 ==> xs[i] == xs[..|xs| - 1][i];
      if keep(last) then init + [last] else init
  }

  /** Filtering distributes over concatenation, so the relative order of kept elements is the input's. */
  lemma {:induction false} FilterAppend<T>(xs: seq<T>, ys: seq<T>, keep: T -> bool)
    ensures Filter(xs + ys, keep) == Filter(xs, keep) + Filter(ys, keep)
    decreases |ys|
  {
    if ys == [] {
      assert xs + ys == xs;
    } else {
      var ys' := ys[..|ys| - 1];
      assert (xs + ys)[..|xs + ys| - 1] == xs + ys';
      FilterAppend(xs, ys', keep);
    }
  }

  /** Nothing is kept when no element satisfies `keep`. */
  lemma {:induction false} FilterNoneKept<T>(xs: seq<T>, keep: T -> bool)
    requires forall i :: 0 <= i < |xs| ==> !keep(xs[i])
    ensures Filter(xs, keep) == []
    decreases |xs|
  {
    if xs != [] {
      FilterNoneKept(xs[..|xs| - 1], keep);
    }
  }

  /** Filters that agree on every element keep the same elements. */
  lemma {:induction false} FilterSameKeep<T>(xs: seq<T>, p: T -> bool, q: T -> bool)
    requires forall i :: 0 <= i < |xs| ==> p(xs[i]) == q(xs[i])
    ensures Filter(xs, p) == Filter(xs, q)
    decreases |xs|
  {
    if xs != [] {
      FilterSameKeep(xs[..|xs| - 1], p, q);
    }
  }
}

=== FILE: engine.dfy ===
/** The resumable single-repository export (`DownloadRepository`): listing
    tasks walk the asset pages with continuation tokens and retries, download
    tasks fetch and verify each asset, and a snapshot of the progress is saved
    to two state files and loaded back on the next run. The executor's three
    threads are modelled as one queue run in submission order. */
module ExportEngine {
  import opened Basics
  import opened JavaStrings
  import opened Items
  import opened UnixPaths

  const MaxRetries: nat := 5
  const BaseRetryDelaySeconds: int := 30
  const MaxRetryDelaySeconds: int := 300
  const BatchDelayMillis: int := 2000
  const DownloadTries: nat := 3
  /** Downloads are followed by a state save when the processed count is a multiple of this. */
  const SaveEveryDownloads: int := 10
  /** The key under which the first page (requested without a token) is recorded. */
  const InitialTokenKey: string := "initial"
  /** The server message that marks a 500 answer as a retryable timeout. */
  const TimeoutMessage: string := "Timed out reading query result"

  function Pow2(n: nat): (r: nat)
    ensures r >= 1
  {
    if n == 0 then 1 else 2 * Pow2(n - 1)
  }

  /** `min(30 * 2^(retry - 1), 300)`: the wait after the `retry`-th timeout. */
  function RetryDelaySeconds(retry: nat): (d: int)
    requires 1 <= retry <= MaxRetries
    ensures BaseRetryDelaySeconds <= d <= MaxRetryDelaySeconds
    ensures d == MaxRetryDelaySeconds || d == BaseRetryDelaySeconds * Pow2(retry - 1)
  {
    var raw := BaseRetryDelaySeconds * Pow2(retry - 1);
    if raw < MaxRetryDelaySeconds then raw else MaxRetryDelaySeconds
  }

  /** The delay doubles from one timeout to the next until it reaches the cap;
      the four waits the loop can make are 30, 60, 120 and 240 seconds. */
  lemma {:induction false} RetryDelayDoublesUntilCap(retry: nat)
    requires 1 <= retry < MaxRetries
    ensures RetryDelaySeconds(retry + 1) ==
      if 2 * RetryDelaySeconds(retry) < MaxRetryDelaySeconds then 2 * RetryDelaySeconds(retry) else MaxRetryDelaySeconds
    ensures RetryDelaySeconds(retry) <= RetryDelaySeconds(retry + 1)
    ensures [RetryDelaySeconds(1), RetryDelaySeconds(2), RetryDelaySeconds(3), RetryDelaySeconds(4)] == [30, 60, 120, 240]
  {
    assert Pow2(retry) == 2 * Pow2(retry - 1);
    assert Pow2(1) == 2 && Pow2(2) == 4 && Pow2(3) == 8;
  }

  /** The processed-token key of a listing task: "initial" for the first page. */
  function TokenKey(token: Option<string>): string {
    if token.None? then InitialTokenKey else token.value
  }

  /** Distinct tokens have distinct keys, except that a token spelled "initial"
      shares its key with the first page. */
  lemma TokenKeyCollisions(a: Option<string>, b: Option<string>)
    ensures TokenKey(a) == TokenKey(b) <==>
      a == b || (a.None? && b == Some(InitialTokenKey)) || (b.None? && a == Some(InitialTokenKey))
  {
  }

  // ---------------------------------------------------------------------------
  // Engine state

  datatype Task = ListAssets(token: Option<string>) | DownloadItem(item: Item)

  /** The exporter's shared state: the two counters, the recorded asset paths
      and page keys, the count of tasks constructed but not finished, and the
      executor's queue. */
  datatype Engine = Engine(
    assetProcessed: int,
    assetFound: int,
    downloadedAssets: set<string>,
    tokensProcessed: set<string>,
    activeTasks: int,
    queue: seq<Task>)

  const Fresh := Engine(0, 0, {}, {}, 0, [])

  /** Every task in the queue has been counted once by its constructor. */
  predicate Balanced(e: Engine) {
    e.activeTasks == |e.queue|
  }

  /** Constructing a task (which counts it) and handing it to the executor. */
  function Submit(e: Engine, t: Task): (r: Engine)
    ensures Balanced(e) ==> Balanced(r)
  {
    e.(activeTasks := e.activeTasks + 1, queue := e.queue + [t])
  }

  /** The download tasks for `items`, in order. */
  function AsDownloads(items: seq<Item>): (r: seq<Task>)
    ensures |r| == |items| && forall i :: 0 <= i < |r| ==> r[i] == DownloadItem(items[i])
  {
    seq(|items|, i requires 0 <= i < |items| => DownloadItem(items[i]))
  }

  // ---------------------------------------------------------------------------
  // Listing task

  /** Position of the first item without a path (`|items|` when there is none). */
  function FirstNullPath(items: seq<Item>): (k: nat)
    ensures k <= |items|
    ensures forall i :: 0 <= i < k ==> items[i].path.Some?
    ensures k < |items| ==> items[k].path.None?
  {
    if items == [] || items[0].path.None? then 0 else 1 + FirstNullPath(items[1..])
  }

  predicate NotYetDownloaded(downloaded: set<string>, x: Item) {
    x.path.Some? && x.path.value !in downloaded
  }

  /** The items a page schedules: those before the first null path (where
      `ConcurrentHashMap.contains(null)` throws) whose path is not recorded. */
  function NewItems(downloaded: set<string>, items: seq<Item>): seq<Item> {
    Filter(items[..FirstNullPath(items)], x => NotYetDownloaded(downloaded, x))
  }

  lemma AsDownloadsAppend(a: seq<Item>, b: seq<Item>)
    ensures AsDownloads(a + b) == AsDownloads(a) + AsDownloads(b)
  {
  }

  /** One turn of the page's for-loop for an item with a path: skip a recorded
      path, otherwise submit a download task and count the asset as found. */
  function ScheduleOne(e: Engine, x: Item): Engine
    requires x.path.Some?
  {
    if x.path.value in e.downloadedAssets then e
    else Submit(e, DownloadItem(x)).(assetFound := e.assetFound + 1)
  }

  /** The first turn accounts for the first item's share of `NewItems`. */
  lemma ScheduleOneShare(e: Engine, items: seq<Item>)
    requires items != [] && items[0].path.Some?
    ensures var e' := ScheduleOne(e, items[0]);
      var d := e.downloadedAssets;
      && e'.downloadedAssets == d && e'.tokensProcessed == e.tokensProcessed
      && e'.assetProcessed == e.assetProcessed
      && e'.queue + AsDownloads(NewItems(d, items[1..])) == e.queue + AsDownloads(NewItems(d, items))
      && e'.assetFound + |NewItems(d, items[1..])| == e.assetFound + |NewItems(d, items)|
      && e'.activeTasks + |NewItems(d, items[1..])| == e.activeTasks + |NewItems(d, items)|
  {
    var d := e.downloadedAssets;
    var x := items[0];
    NewItemsCons(d, items);
    var head := if NotYetDownloaded(d, x) then [x] else [];
    AsDownloadsAppend(head, NewItems(d, items[1..]));
    assert ScheduleOne(e, x).queue == e.queue + AsDownloads(head);
  }

  /** The page's for-loop, item by item; it stops at a null path. The flag
      says whether the loop finished. */
  function ScheduleItems(e: Engine, items: seq<Item>): (r: (Engine, bool))
    ensures r.1 <==> FirstNullPath(items) == |items|
    ensures r.0.queue == e.queue + AsDownloads(NewItems(e.downloadedAssets, items))
    ensures r.0.assetFound == e.assetFound + |NewItems(e.downloadedAssets, items)|
    ensures r.0.activeTasks == e.activeTasks + |NewItems(e.downloadedAssets, items)|
    ensures r.0.downloadedAssets == e.downloadedAssets && r.0.tokensProcessed == e.tokensProcessed
    ensures r.0.assetProcessed == e.assetProcessed
    decreases |items|
  {
    if items == [] then (e, true)
    else if items[0].path.None? then (e, false)
    else
      ScheduleOneShare(e, items);
      ScheduleItems(ScheduleOne(e, items[0]), items[1..])
  }

  lemma NewItemsCons(downloaded: set<string>, items: seq<Item>)
    requires items != [] && items[0].path.Some?
    ensures NewItems(downloaded, items) ==
      (if NotYetDownloaded(downloaded, items[0]) then [items[0]] else []) + NewItems(downloaded, items[1..])
  {
    var k := FirstNullPath(items);
    var keep := x => NotYetDownloaded(downloaded, x);
    assert items[..k] == [items[0]] + items[1..][..k - 1];
    FilterAppend([items[0]], items[1..][..k - 1], keep);
    assert Filter([items[0]], keep) == (if keep(items[0]) then [items[0]] else []) by {
      assert [items[0]][..0] == [];
    }
  }

  /** One answer of the listing endpoint, or the exception its request raised. */
  datatype PageAttempt =
    | Answered(body: Option<Assets>)
    | InternalServerError(message: string)
    | RequestFailed

  /** The retry loop's result: the answer received (none when it gave up), the
      number of requests made, the waits in milliseconds, and whether it saved
      the state on the way out. */
  datatype PageFetch = PageFetch(answer: Option<Option<Assets>>, tries: nat, sleepsMillis: seq<int>, savedState: bool)

  predicate IsTimeout(a: PageAttempt) {
    a.InternalServerError? && Contains(a.message, TimeoutMessage)
  }

  /** The retry loop from request `retryCount + 1`: a timeout is retried after
      the capped exponential delay up to five requests in all; any other 500,
      any other exception, or the fifth timeout gives up and saves the state. */
  function FetchPage(attempts: seq<PageAttempt>, retryCount: nat): (r: PageFetch)
    requires retryCount < MaxRetries <= |attempts|
    ensures retryCount + 1 <= r.tries <= MaxRetries
    ensures r.answer.Some? <==> attempts[r.tries - 1].Answered?
    ensures r.answer.Some? ==> r.answer.value == attempts[r.tries - 1].body
    ensures r.savedState <==> r.answer.None?
    ensures forall k :: retryCount <= k < r.tries - 1 ==> IsTimeout(attempts[k])
    ensures r.answer.None? && r.tries < MaxRetries ==> !IsTimeout(attempts[r.tries - 1])
    ensures |r.sleepsMillis| == r.tries - 1 - retryCount
    ensures forall k :: 0 <= k < |r.sleepsMillis| ==>
      r.sleepsMillis[k] == RetryDelaySeconds(retryCount + k + 1) * 1000
    decreases MaxRetries - retryCount
  {
    match attempts[retryCount]
    case Answered(body) => PageFetch(Some(body), retryCount + 1, [], false)
    case RequestFailed => PageFetch(None, retryCount + 1, [], true)
    case InternalServerError(message) =>
      var retries := retryCount + 1;
      if Contains(message, TimeoutMessage) && retries < MaxRetries then
        var rest := FetchPage(attempts, retries);
        rest.(sleepsMillis := [RetryDelaySeconds(retries) * 1000] + rest.sleepsMillis)
      else
        PageFetch(None, retries, [], true)
  }

  /** What a finished task leaves behind. */
  datatype PageOutcome = PageOutcome(engine: Engine, sleepsMillis: seq<int>, savedState: bool)

  /** A received answer: a page with items schedules them; if none had a null
      path the page's key is recorded and the next page, if any, is submitted
      after a two-second pause. A null body or item list does nothing. */
  function ProcessAnswer(e: Engine, key: string, body: Option<Assets>): (r: PageOutcome)
    ensures r.engine.downloadedAssets == e.downloadedAssets && r.engine.assetProcessed == e.assetProcessed
    ensures Balanced(e) ==> Balanced(r.engine)
    ensures body.None? || body.value.items.None? ==> r == PageOutcome(e, [], false)
    ensures body.Some? && body.value.items.Some? ==>
      var items := body.value.items.value;
      var newItems := NewItems(e.downloadedAssets, items);
      var complete := FirstNullPath(items) == |items|;
      && r.engine.assetFound == e.assetFound + |newItems|
      && r.engine.queue == e.queue + AsDownloads(newItems)
           + (if complete && body.value.continuationToken.Some?
              then [ListAssets(body.value.continuationToken)] else [])
      && r.engine.tokensProcessed == (if complete then e.tokensProcessed + {key} else e.tokensProcessed)
      && (r.savedState <==> !complete)
  {
    if body.None? || body.value.items.None? then PageOutcome(e, [], false)
    else
      var (e1, complete) := ScheduleItems(e, body.value.items.value);
      if !complete then PageOutcome(e1, [], true)
      else
        var e2 := e1.(tokensProcessed := e1.tokensProcessed + {key});
        if body.value.continuationToken.Some? then
          PageOutcome(Submit(e2, ListAssets(body.value.continuationToken)), [BatchDelayMillis], false)
        else PageOutcome(e2, [], false)
  }

  /** A body whose key gets recorded: a page with an item list none of whose
      items lacks a path. */
  predicate CompletePage(body: Option<Assets>) {
    body.Some? && body.value.items.Some? && FirstNullPath(body.value.items.value) == |body.value.items.value|
  }

  /** `DownloadAssetsTask.run` (without the final decrement of the task count):
      a page whose key is recorded is skipped without a request; otherwise the
      retry loop runs and its answer is processed. */
  function RunListing(e: Engine, token: Option<string>, attempts: seq<PageAttempt>): (r: PageOutcome)
    requires |attempts| >= MaxRetries
    ensures TokenKey(token) in e.tokensProcessed ==> r == PageOutcome(e, [], false)
    ensures r.engine.downloadedAssets == e.downloadedAssets && r.engine.assetProcessed == e.assetProcessed
    ensures e.tokensProcessed <= r.engine.tokensProcessed <= e.tokensProcessed + {TokenKey(token)}
    ensures Balanced(e) ==> Balanced(r.engine)
    ensures |r.engine.queue| >= |e.queue|
    ensures TokenKey(token) !in e.tokensProcessed ==>
      var f := FetchPage(attempts, 0);
      && (TokenKey(token) in r.engine.tokensProcessed <==> f.answer.Some? && CompletePage(f.answer.value))
      && (r.savedState <==> f.answer.None? || (f.answer.value.Some? && f.answer.value.value.items.Some?
                                                && !CompletePage(f.answer.value)))
      && (f.answer.None? ==> r == PageOutcome(e, f.sleepsMillis, true))
      && (f.answer.Some? ==> r.engine == ProcessAnswer(e, TokenKey(token), f.answer.value).engine)
      && f.sleepsMillis <= r.sleepsMillis
  {
    var key := TokenKey(token);
    if key in e.tokensProcessed then PageOutcome(e, [], false)
    else
      var f := FetchPage(attempts, 0);
      if f.answer.None? then PageOutcome(e, f.sleepsMillis, true)
      else
        var p := ProcessAnswer(e, key, f.answer.value);
        p.(sleepsMillis := f.sleepsMillis + p.sleepsMillis)
  }

  /** Once a page's key is recorded, listing it again changes nothing: a token
      received twice is fetched at most once. */
  lemma ListingTwiceIsListingOnce(e: Engine, token: Option<string>, first: seq<PageAttempt>, second: seq<PageAttempt>)
    requires |first| >= MaxRetries && |second| >= MaxRetries
    requires TokenKey(token) in RunListing(e, token, first).engine.tokensProcessed
    ensures RunListing(RunListing(e, token, first).engine, token, second).engine == RunListing(e, token, first).engine
  {
  }

  /** The page's facts as the processing of one answer sees them. */
  predicate PageRecorded(e: Engine, r: Engine, key: string, page: Assets)
    requires page.items.Some?
    requires forall i :: 0 <= i < |page.items.value| ==> page.items.value[i].path.Some?
  {
    var newItems := NewItems(e.downloadedAssets, page.items.value);
    && key in r.tokensProcessed
    && r.queue == e.queue + AsDownloads(newItems)
         + (if page.continuationToken.Some? then [ListAssets(page.continuationToken)] else [])
    && (forall i :: 0 <= i < |newItems| ==>
          newItems[i] in page.items.value && newItems[i].path.value !in e.downloadedAssets)
    && (forall i :: 0 <= i < |page.items.value| && page.items.value[i].path.value !in e.downloadedAssets
          ==> page.items.value[i] in newItems)
  }

  lemma ProcessedPageIsRecorded(e: Engine, key: string, page: Assets)
    requires page.items.Some?
    requires forall i :: 0 <= i < |page.items.value| ==> page.items.value[i].path.Some?
    ensures PageRecorded(e, ProcessAnswer(e, key, Some(page)).engine, key, page)
  {
    var items := page.items.value;
    assert FirstNullPath(items) == |items|;
    assert items[..|items|] == items;
  }

  /** A page answered within the retries, with items that all have paths: the
      new items are queued, the key is recorded, and the next page follows the
      downloads. */
  lemma AnsweredPageIsRecorded(e: Engine, token: Option<string>, attempts: seq<PageAttempt>, page: Assets)
    requires |attempts| >= MaxRetries && TokenKey(token) !in e.tokensProcessed
    requires FetchPage(attempts, 0).answer == Some(Some(page)) && page.items.Some?
    requires forall i :: 0 <= i < |page.items.value| ==> page.items.value[i].path.Some?
    ensures PageRecorded(e, RunListing(e, token, attempts).engine, TokenKey(token), page)
  {
    ProcessedPageIsRecorded(e, TokenKey(token), page);
  }

  // ---------------------------------------------------------------------------
  // Download task

  /** A file already at the asset's location: its content's SHA-1, or an
      IOException while hashing it. */
  datatype ExistingFile = Readable(digest: string) | HashFailed

  /** How a download task ended. */
  datatype ItemVerdict =
    | AlreadyDownloaded
    | AlreadyValid
    | Verified(tries: nat)
    | NeverMatched
    | Failed

  predicate Succeeded(v: ItemVerdict) {
    v.AlreadyValid? || v.Verified?
  }

  /** The download loop's result: the try whose fetch was verified, every try
      spent, or the try whose exception left the loop. */
  datatype LoopResult = Matched(tries: nat) | Exhausted | Threw(tries: nat)

  /** The try at which the loop stops. */
  function LastTry(r: LoopResult): nat {
    match r
    case Matched(n) => n
    case Exhausted => DownloadTries
    case Threw(n) => n
  }

  /** A fetch after which the loop goes on (unless it was the last try): an
      IOException, or content whose SHA-1 differs from a non-null checksum. */
  predicate Retries(item: Item, f: Fetch) {
    f.FetchFailed? || (item.checksum.Some? && item.checksum.value.sha1 != Some(f.digest))
  }

  /** The waits for tries `lo + 1` to `hi`: `1000 * k` ms after each try `k`
      whose fetch failed, in order. */
  function FailureWaits(fetches: seq<Fetch>, lo: nat, hi: nat): (w: seq<int>)
    requires lo <= hi <= |fetches|
    ensures |w| <= hi - lo
    ensures forall i :: 0 <= i < |w| ==> 1000 * (lo + 1) <= w[i] <= 1000 * hi
    decreases hi - lo
  {
    if lo == hi then []
    else (if fetches[lo].FetchFailed? then [1000 * (lo + 1)] else []) + FailureWaits(fetches, lo + 1, hi)
  }

  /** The download loop from try `tryCount`: a fetch whose SHA-1 equals the
      item's matches; a mismatch is retried without pause; an IOException waits
      `1000 * tryCount` ms and retries, except on the third try where it is
      rethrown. A null checksum throws a NullPointerException on the first copy.
      The result is fixed by the first try that does not retry. */
  function FetchLoop(item: Item, fetches: seq<Fetch>, tryCount: nat): (r: (LoopResult, seq<int>))
    requires 1 <= tryCount <= DownloadTries <= |fetches|
    ensures tryCount <= LastTry(r.0) <= DownloadTries
    ensures forall k :: tryCount - 1 <= k < LastTry(r.0) - 1 ==> Retries(item, fetches[k])
    ensures r.0.Matched? ==>
      item.checksum.Some? && item.checksum.value.sha1.Some?
      && fetches[r.0.tries - 1] == Fetched(item.checksum.value.sha1.value)
    ensures r.0.Exhausted? ==> fetches[DownloadTries - 1].Fetched? && Retries(item, fetches[DownloadTries - 1])
    ensures r.0.Threw? ==>
      (fetches[r.0.tries - 1].Fetched? && item.checksum.None?) ||
      (r.0.tries == DownloadTries && fetches[r.0.tries - 1].FetchFailed?)
    ensures r.1 == FailureWaits(fetches, tryCount - 1, LastTry(r.0) - 1)
    decreases DownloadTries - tryCount
  {
    match fetches[tryCount - 1]
    case Fetched(d) =>
      if item.checksum.None? then (Threw(tryCount), [])
      else if item.checksum.value.sha1 == Some(d) then (Matched(tryCount), [])
      else if tryCount == DownloadTries then (Exhausted, [])
      else FetchLoop(item, fetches, tryCount + 1)
    case FetchFailed =>
      if tryCount == DownloadTries then (Threw(tryCount), [])
      else
        var rest := FetchLoop(item, fetches, tryCount + 1);
        (rest.0, [1000 * tryCount] + rest.1)
  }

  /** The first try that does not retry decides the loop: a matching fetch is
      verified, a fetch with a null checksum throws; if all tries before the
      third retry, a third mismatch exhausts the loop and a third failure
      throws. */
  lemma FetchLoopDecidedAt(item: Item, fetches: seq<Fetch>, j: nat)
    requires DownloadTries <= |fetches| && j < DownloadTries
    requires forall k :: 0 <= k < j ==> Retries(item, fetches[k])
    ensures var r := FetchLoop(item, fetches, 1).0;
      && (!Retries(item, fetches[j]) ==>
            r == (if item.checksum.Some? then Matched(j + 1) else Threw(j + 1)))
      && (j == DownloadTries - 1 && Retries(item, fetches[j]) ==>
            r == (if fetches[j].FetchFailed? then Threw(DownloadTries) else Exhausted))
  {
    var r := FetchLoop(item, fetches, 1).0;
    if !Retries(item, fetches[j]) || j == DownloadTries - 1 {
      assert LastTry(r) - 1 <= j;
      if LastTry(r) - 1 < j {
        assert Retries(item, fetches[LastTry(r) - 1]);
      }
    }
  }

  /** Every try fetched content with the wrong digest: the loop ends quietly. */
  lemma AllMismatchesExhaust(item: Item, fetches: seq<Fetch>)
    requires |fetches| >= DownloadTries && item.checksum.Some?
    requires forall k :: 0 <= k < DownloadTries ==>
      fetches[k].Fetched? && Some(fetches[k].digest) != item.checksum.value.sha1
    ensures FetchLoop(item, fetches, 1).0 == Exhausted
  {
  }

  /** What the download task finds on disk: an existing file at the asset's
      location (if any), whether its directories could be created, and the
      content each try fetches. */
  datatype ItemEnv = ItemEnv(existing: Option<ExistingFile>, directoriesCreated: bool, fetches: seq<Fetch>)

  /** The download task's result: the new engine state, the verdict, where the
      asset is stored, the waits in milliseconds, and whether the state was saved. */
  datatype DownloadOutcome = DownloadOutcome(engine: Engine, verdict: ItemVerdict, location: Option<Path>,
                                             sleepsMillis: seq<int>, savedState: bool)

  /** Recording a verified asset: its path joins the downloaded set and the
      processed count grows by one. */
  function RecordDownload(e: Engine, path: string): Engine {
    e.(downloadedAssets := e.downloadedAssets + {path}, assetProcessed := e.assetProcessed + 1)
  }

  /** The existing file could be hashed but the checksum is null: reading its
      SHA-1 throws a NullPointerException, which the hashing catch does not
      handle. */
  predicate ExistingThrows(item: Item, env: ItemEnv) {
    env.existing.Some? && env.existing.value.Readable? && item.checksum.None?
  }

  /** The existing file could be hashed and its SHA-1 equals the item's. */
  predicate ExistingIsValid(item: Item, env: ItemEnv) {
    && env.existing.Some? && env.existing.value.Readable? && item.checksum.Some?
    && item.checksum.value.sha1 == Some(env.existing.value.digest)
  }

  /** The directories could be created and the download URL is not null. */
  predicate Fetchable(item: Item, env: ItemEnv) {
    env.directoriesCreated && item.downloadUrl.Some?
  }

  /** The part of `DownloadItemTask.run` after the recorded-path check, for an
      asset stored at `location`: an existing file with the right SHA-1 is
      kept; otherwise (a file that cannot be hashed included) the directories
      are created and the download loop runs. A null checksum next to a
      hashable file, a failed directory creation, a null download URL, or an
      exception from the loop ends the task and saves the state. */
  function PlaceAndFetch(e: Engine, path: string, location: Path, item: Item, env: ItemEnv): (r: DownloadOutcome)
    requires path !in e.downloadedAssets && |env.fetches| >= DownloadTries
    ensures r.location == Some(location)
    ensures r.verdict == AlreadyValid <==> ExistingIsValid(item, env)
    ensures var loop := FetchLoop(item, env.fetches, 1);
      && (r.verdict.Verified? <==>
            !ExistingIsValid(item, env) && !ExistingThrows(item, env) && Fetchable(item, env) && loop.0.Matched?)
      && (r.verdict.Verified? ==> r.verdict.tries == loop.0.tries && r.sleepsMillis == loop.1)
      && (r.verdict == NeverMatched <==>
            !ExistingIsValid(item, env) && !ExistingThrows(item, env) && Fetchable(item, env) && loop.0.Exhausted?)
    ensures r.verdict != AlreadyDownloaded
    ensures Succeeded(r.verdict) ==> r.engine == RecordDownload(e, path)
    ensures !Succeeded(r.verdict) ==> r.engine == e
    ensures r.savedState <==>
      r.verdict.Failed? || (r.verdict.Verified? && r.engine.assetProcessed % SaveEveryDownloads == 0)
  {
    if ExistingThrows(item, env) then DownloadOutcome(e, Failed, Some(location), [], true)
    else if ExistingIsValid(item, env) then
      DownloadOutcome(RecordDownload(e, path), AlreadyValid, Some(location), [], false)
    else if !Fetchable(item, env) then
      DownloadOutcome(e, Failed, Some(location), [], true)
    else
      var (result, sleeps) := FetchLoop(item, env.fetches, 1);
      match result
      case Matched(n) =>
        var e' := RecordDownload(e, path);
        DownloadOutcome(e', Verified(n), Some(location), sleeps, e'.assetProcessed % SaveEveryDownloads == 0)
      case Exhausted => DownloadOutcome(e, NeverMatched, Some(location), sleeps, false)
      case Threw(_) => DownloadOutcome(e, Failed, Some(location), sleeps, true)
  }

  /** The asset path is not null and not yet recorded. */
  predicate Pending(e: Engine, item: Item) {
    item.path.Some? && item.path.value !in e.downloadedAssets
  }

  /** `DownloadItemTask.run` (without the final decrement of the task count),
      with the asset placed by the corrected rule. A null path throws in the
      recorded-path check; a recorded path is skipped. */
  function RunDownload(e: Engine, root: Path, item: Item, env: ItemEnv): (r: DownloadOutcome)
    requires |env.fetches| >= DownloadTries
    ensures r.verdict == AlreadyDownloaded <==> item.path.Some? && item.path.value in e.downloadedAssets
    ensures r.verdict == AlreadyValid <==> Pending(e, item) && ExistingIsValid(item, env)
    ensures var loop := FetchLoop(item, env.fetches, 1);
      && (r.verdict.Verified? <==>
            && Pending(e, item) && !ExistingIsValid(item, env) && !ExistingThrows(item, env)
            && Fetchable(item, env) && loop.0.Matched?)
      && (r.verdict.Verified? ==> r.verdict.tries == loop.0.tries && r.sleepsMillis == loop.1)
      && (r.verdict == NeverMatched <==>
            && Pending(e, item) && !ExistingIsValid(item, env) && !ExistingThrows(item, env)
            && Fetchable(item, env) && loop.0.Exhausted?)
    ensures Succeeded(r.verdict) <==> r.engine != e
    ensures Succeeded(r.verdict) ==>
      && Pending(e, item) && r.engine == RecordDownload(e, item.path.value)
      && item.checksum.Some? && item.checksum.value.sha1.Some?
    ensures r.verdict.Verified? ==>
      env.fetches[r.verdict.tries - 1] == Fetched(item.checksum.value.sha1.value)
    ensures item.path.None? || item.checksum.None? ==> !Succeeded(r.verdict)
    ensures r.location.Some? <==> Pending(e, item)
    ensures r.location.Some? ==> r.location.value == AssetLocationFixed(root, item.path.value)
    ensures r.location.Some? && !StartsWith(item.path.value, "//") ==>
      r.location.value == AssetLocation(root, item.path.value)
    ensures r.savedState <==>
      r.verdict.Failed? || (r.verdict.Verified? && r.engine.assetProcessed % SaveEveryDownloads == 0)
  {
    if item.path.None? then DownloadOutcome(e, Failed, None, [], true)
    else if item.path.value in e.downloadedAssets then DownloadOutcome(e, AlreadyDownloaded, None, [], false)
    else
      var r := PlaceAndFetch(e, item.path.value, AssetLocationFixed(root, item.path.value), item, env);
      RecordGrows(e, item.path.value);
      r
  }

  lemma RecordGrows(e: Engine, path: string)
    requires path !in e.downloadedAssets
    ensures RecordDownload(e, path) != e
    ensures |RecordDownload(e, path).downloadedAssets| == |e.downloadedAssets| + 1
  {
    assert path in RecordDownload(e, path).downloadedAssets;
  }

  /** A recorded asset is never downloaded again: a second download task for the
      same item changes nothing, whatever it would find. */
  lemma DownloadIsIdempotent(e: Engine, root: Path, item: Item, env1: ItemEnv, env2: ItemEnv)
    requires |env1.fetches| >= DownloadTries && |env2.fetches| >= DownloadTries
    requires Succeeded(RunDownload(e, root, item, env1).verdict)
    ensures var once := RunDownload(e, root, item, env1).engine;
      RunDownload(once, root, item, env2) == DownloadOutcome(once, AlreadyDownloaded, None, [], false)
  {
  }

  // ---------------------------------------------------------------------------
  // Running the queue

  /** Everything one task meets: the answers to its listing requests and what
      a download finds. */
  datatype StepInput = StepInput(attempts: seq<PageAttempt>, env: ItemEnv)

  predicate ValidInput(input: StepInput) {
    |input.attempts| >= MaxRetries && |input.env.fetches| >= DownloadTries
  }

  /** Runs the task at the head of the queue; its `finally` block decrements
      the active count. */
  function Step(e: Engine, root: Path, input: StepInput): (r: Engine)
    requires e.queue != [] && ValidInput(input)
    ensures Balanced(e) ==> Balanced(r)
    ensures r.assetProcessed - |r.downloadedAssets| == e.assetProcessed - |e.downloadedAssets|
    ensures e.downloadedAssets <= r.downloadedAssets && e.tokensProcessed <= r.tokensProcessed
    ensures r.assetProcessed >= e.assetProcessed && r.assetFound >= e.assetFound
  {
    var rest := e.(queue := e.queue[1..], activeTasks := e.activeTasks - 1);
    match e.queue[0]
    case ListAssets(token) => RunListing(rest, token, input.attempts).engine
    case DownloadItem(item) =>
      var r := RunDownload(rest, root, item, input.env);
      if Succeeded(r.verdict) then RecordGrows(rest, item.path.value); r.engine else r.engine
  }

  /** The reference run from the input at position `k`: the head task runs
      with the next input for as long as a task is active and inputs remain.
      Gives the final engine and the position reached, which counts the tasks
      run. The active count stays equal to the queue length, the recorded sets
      only grow, and every processed asset adds exactly one recorded path. */
  function Drain(e: Engine, root: Path, inputs: seq<StepInput>, k: nat): (r: (Engine, nat))
    requires Balanced(e) && k <= |inputs|
    requires forall i :: 0 <= i < |inputs| ==> ValidInput(inputs[i])
    ensures Balanced(r.0) && k <= r.1 <= |inputs|
    ensures r.0.activeTasks == 0 || r.1 == |inputs|
    ensures r.0.assetProcessed - |r.0.downloadedAssets| == e.assetProcessed - |e.downloadedAssets|
    ensures e.downloadedAssets <= r.0.downloadedAssets && e.tokensProcessed <= r.0.tokensProcessed
    ensures r.0.assetProcessed >= e.assetProcessed && r.0.assetFound >= e.assetFound
    decreases |inputs| - k
  {
    if k == |inputs| || e.activeTasks == 0 then (e, k)
    else Drain(Step(e, root, inputs[k]), root, inputs, k + 1)
  }

  /** `waitForCompletion`: tasks run while any is active or until the inputs
      run out, exactly as the reference run `Drain` says. */
  method RunUntilQuiescent(e: Engine, root: Path, inputs: seq<StepInput>) returns (final: Engine, steps: nat)
    requires Balanced(e)
    requires forall i :: 0 <= i < |inputs| ==> ValidInput(inputs[i])
    ensures (final, steps) == Drain(e, root, inputs, 0)
    ensures Balanced(final)
    ensures steps <= |inputs|
    ensures final.activeTasks == 0 || steps == |inputs|
    ensures final.assetProcessed - |final.downloadedAssets| == e.assetProcessed - |e.downloadedAssets|
    ensures e.downloadedAssets <= final.downloadedAssets && e.tokensProcessed <= final.tokensProcessed
    ensures final.assetProcessed >= e.assetProcessed && final.assetFound >= e.assetFound
  {
    final := e;
    steps := 0;
    while steps < |inputs| && final.activeTasks > 0
      invariant steps <= |inputs| && Balanced(final)
      invariant Drain(e, root, inputs, 0) == Drain(final, root, inputs, steps)
    {
      final := Step(final, root, inputs[steps]);
      steps := steps + 1;
    }
  }

  // ---------------------------------------------------------------------------
  // State files

  /** The content of `.nexus-export-state.json`; a missing key is `None`. */
  datatype StateFile = StateFile(assetProcessed: Option<int>, assetFound: Option<int>, tokens: Option<set<string>>)

  /** The two state files of the export directory. The downloaded-assets file
      holds a JSON list; its order is not modelled. */
  datatype Disk = Disk(state: Stored<StateFile>, downloaded: Stored<set<string>>)

  /** `saveState` (the `lastUpdate` time stamp is left out). */
  function SaveState(e: Engine): (d: Disk)
    ensures d.state.Present? && d.downloaded.Present?
    ensures d.downloaded.content == e.downloadedAssets
    ensures d.state.content.assetProcessed == Some(e.assetProcessed)
    ensures d.state.content.assetFound == Some(e.assetFound)
    ensures d.state.content.tokens == Some(e.tokensProcessed)
  {
    Disk(Present(StateFile(Some(e.assetProcessed), Some(e.assetFound), Some(e.tokensProcessed))),
         Present(e.downloadedAssets))
  }

  /** A missing number loads as zero. */
  function OrZero(v: Option<int>): int {
    if v.Some? then v.value else 0
  }

  /** A missing token list loads as no tokens. */
  function OrNone(v: Option<set<string>>): set<string> {
    if v.Some? then v.value else {}
  }

  /** `loadPreviousState`: the state file sets the counters (zero for a missing
      key) and adds its tokens; then the downloaded-assets file adds its paths.
      An unreadable state file raises before the second file is read. */
  function LoadPreviousState(e: Engine, d: Disk): (r: Engine)
    ensures r.activeTasks == e.activeTasks && r.queue == e.queue
    ensures d.state.Unreadable? ==> r == e
    ensures d.state.Missing? ==>
      r.assetProcessed == e.assetProcessed && r.assetFound == e.assetFound && r.tokensProcessed == e.tokensProcessed
    ensures d.state.Present? ==>
      && r.assetProcessed == OrZero(d.state.content.assetProcessed)
      && r.assetFound == OrZero(d.state.content.assetFound)
      && r.tokensProcessed == e.tokensProcessed + OrNone(d.state.content.tokens)
    ensures d.state.Present? && d.state.content.assetProcessed.None? ==> r.assetProcessed == 0
    ensures d.state.Present? && d.state.content.assetFound.None? ==> r.assetFound == 0
    ensures d.state.Present? && d.state.content.tokens.None? ==> r.tokensProcessed == e.tokensProcessed
    ensures !d.state.Unreadable? && d.downloaded.Present? ==>
      r.downloadedAssets == e.downloadedAssets + d.downloaded.content
    ensures !d.downloaded.Present? ==> r.downloadedAssets == e.downloadedAssets
  {
    match d.state
    case Unreadable => e
    case Missing => LoadDownloaded(e, d.downloaded)
    case Present(s) =>
      LoadDownloaded(e.(assetProcessed := OrZero(s.assetProcessed), assetFound := OrZero(s.assetFound),
                        tokensProcessed := e.tokensProcessed + OrNone(s.tokens)), d.downloaded)
  }

  /** The second half of `loadPreviousState`: an unreadable file adds nothing. */
  function LoadDownloaded(e: Engine, f: Stored<set<string>>): (r: Engine)
    ensures f.Present? ==> r == e.(downloadedAssets := e.downloadedAssets + f.content)
    ensures !f.Present? ==> r == e
  {
    if f.Present? then e.(downloadedAssets := e.downloadedAssets + f.content) else e
  }

  /** Saving then loading into a fresh exporter restores the counters, the
      processed tokens and the downloaded paths. */
  lemma SaveLoadRoundTrip(e: Engine)
    ensures var r := LoadPreviousState(Fresh, SaveState(e));
      && r.assetProcessed == e.assetProcessed && r.assetFound == e.assetFound
      && r.tokensProcessed == e.tokensProcessed && r.downloadedAssets == e.downloadedAssets
      && r.queue == [] && r.activeTasks == 0
  {
  }

  /** An unreadable state file throws before the downloaded-assets file is read:
      a readable list of downloaded paths is then ignored too. */
  lemma UnreadableStateSkipsDownloadedList(paths: set<string>)
    ensures LoadPreviousState(Fresh, Disk(Unreadable, Present(paths))) == Fresh
  {
  }

  /** A snapshot taken after the first page was processed holds the key
      "initial". The next run's only task is that same first listing, which is
      skipped without a request: the run ends after one task, with nothing
      queued, so the pages still pending when the snapshot was taken are never
      listed. */
  lemma InitialSnapshotEndsAtOnce(s: StateFile, saved: Stored<set<string>>, root: Path, inputs: seq<StepInput>)
    requires s.tokens.Some? && InitialTokenKey in s.tokens.value
    requires |inputs| >= 1 && forall i :: 0 <= i < |inputs| ==> ValidInput(inputs[i])
    ensures var loaded := LoadPreviousState(Fresh, Disk(Present(s), saved));
      && Drain(Submit(loaded, ListAssets(None)), root, inputs, 0) == (loaded, 1)
      && loaded.activeTasks == 0 && loaded.queue == []
  {
    var loaded := LoadPreviousState(Fresh, Disk(Present(s), saved));
    var start := Submit(loaded, ListAssets(None));
    assert start.queue == [ListAssets(None)];
    assert Step(start, root, inputs[0]) == loaded;
    assert Drain(loaded, root, inputs, 1) == (loaded, 1);
  }

  // ---------------------------------------------------------------------------
  // The export

  datatype ExportOutcome =
    | SetupFailed
    | Completed(final: Engine, disk: Disk)
    | Interrupted(final: Engine, disk: Disk)

  /** `start`: set up the directory, load the previous state, submit the first
      listing task and run until no task is active; then delete both state
      files. When the directory cannot be set up the state file path is still
      unset, so nothing is saved. If the run stops with tasks left (the
      interrupted wait), the state is saved for the next run. */
  method Export(setupOk: bool, previous: Disk, root: Path, inputs: seq<StepInput>) returns (outcome: ExportOutcome)
    requires forall i :: 0 <= i < |inputs| ==> ValidInput(inputs[i])
    ensures outcome.SetupFailed? <==> !setupOk
    ensures outcome.Completed? ==>
      outcome.disk == Disk(Missing, Missing) && outcome.final.activeTasks == 0 && outcome.final.queue == []
    ensures outcome.Interrupted? ==> outcome.disk == SaveState(outcome.final) && outcome.final.queue != []
    ensures outcome.Completed? <==> setupOk && outcome.final.activeTasks == 0
    ensures !outcome.SetupFailed? ==>
      var loaded := LoadPreviousState(Fresh, previous);
      && outcome.final == Drain(Submit(loaded, ListAssets(None)), root, inputs, 0).0
      && Balanced(outcome.final)
      && outcome.final.assetProcessed - |outcome.final.downloadedAssets| == loaded.assetProcessed - |loaded.downloadedAssets|
      && loaded.downloadedAssets <= outcome.final.downloadedAssets
      && loaded.tokensProcessed <= outcome.final.tokensProcessed
  {
    if !setupOk {
      return SetupFailed;
    }
    var loaded := LoadPreviousState(Fresh, previous);
    var start := Submit(loaded, ListAssets(None));
    var final, steps := RunUntilQuiescent(start, root, inputs);
    if final.activeTasks == 0 {
      outcome := Completed(final, Disk(Missing, Missing));
    } else {
      outcome := Interrupted(final, SaveState(final));
    }
  }
}

=== FILE: items.dfy ===
/** An asset record returned by the Nexus 3 listing endpoint, and the two
    derivations `Item.getArtifactKey` and `Item.getVersion` used to group the
    versions of one artifact and to name the version that was kept. */
module Items {
  import opened Basics
  import opened JavaStrings

  datatype Checksum = Checksum(sha1: Option<string>)

  /** One format section of the attributes map, e.g. the "maven2" map holding
      groupId, artifactId and version. A JSON null is an absent key. */
  type Section = map<string, string>

  /** An asset. Fields the modelled logic never reads (uploader, sizes,
      timestamps other than `lastUpdated`) are left out. */
  datatype Item = Item(
    path: Option<string>,
    id: Option<string>,
    format: Option<string>,
    downloadUrl: Option<string>,
    checksum: Option<Checksum>,
    lastUpdated: int,
    attributes: Option<map<string, Section>>)

  /** One request for an asset's content from its download URL: the stream
      was copied to disk and hashes to `digest` (lower-case hexadecimal SHA-1),
      or opening, reading or writing it raised an IOException. */
  datatype Fetch = Fetched(digest: string) | FetchFailed

  /** One page of the listing endpoint: its items and the continuation token. */
  datatype Assets = Assets(items: Option<seq<Item>>, continuationToken: Option<string>)

  /** `attributes.get(section).get(field)`, null whenever a map on the way is null. */
  function Attribute(item: Item, section: string, field: string): Option<string> {
    if item.attributes.Some? && section in item.attributes.value
       && field in item.attributes.value[section]
    then Some(item.attributes.value[section][field])
    else None
  }

  /** `"<format>".equals(format)`: false for a null format. */
  predicate IsFormat(item: Item, format: string) {
    item.format == Some(format)
  }

  /** The path-based fallback of `getArtifactKey`: the path without its last
      `split("/")` segment, the path itself when there is no such segment, and
      the id when the path is null. */
  function PathKey(path: Option<string>, id: Option<string>): Option<string> {
    if path.Some? && '/' in path.value && |Split(path.value)| > 1 then
      var parts := Split(path.value);
      Some(Join(parts[..|parts| - 1]))
    else if path.Some? then path
    else id
  }

  /** `Item.getArtifactKey`: groupId:artifactId for maven2, the package name for
      npm, the package id for nuget, else the path-based fallback. A format
      branch whose fields are missing falls through to the fallback. */
  function ArtifactKey(item: Item): (r: Option<string>)
    ensures item.path.Some? ==> r.Some?
    ensures r.None? ==> item.path.None? && item.id.None?
  {
    if IsFormat(item, "maven2") && Attribute(item, "maven2", "groupId").Some?
       && Attribute(item, "maven2", "artifactId").Some? then
      Some(Attribute(item, "maven2", "groupId").value + ":" + Attribute(item, "maven2", "artifactId").value)
    else if IsFormat(item, "npm") && Attribute(item, "npm", "name").Some? then
      Attribute(item, "npm", "name")
    else if IsFormat(item, "nuget") && Attribute(item, "nuget", "id").Some? then
      Attribute(item, "nuget", "id")
    else
      PathKey(item.path, item.id)
  }

  /** The format branch of `getArtifactKey` applies (its sub-fields are all present). */
  predicate KeyedByAttributes(item: Item) {
    || (IsFormat(item, "maven2") && Attribute(item, "maven2", "groupId").Some?
        && Attribute(item, "maven2", "artifactId").Some?)
    || (IsFormat(item, "npm") && Attribute(item, "npm", "name").Some?)
    || (IsFormat(item, "nuget") && Attribute(item, "nuget", "id").Some?)
  }

  /** Per-format keys: groupId ":" artifactId, the npm name, the nuget id; an item
      whose format branch lacks a field is keyed by its path, never by another
      format's branch. */
  lemma ArtifactKeyByFormat(item: Item)
    ensures IsFormat(item, "maven2") && KeyedByAttributes(item) ==>
      ArtifactKey(item) == Some(Attribute(item, "maven2", "groupId").value + ":"
                                + Attribute(item, "maven2", "artifactId").value)
    ensures IsFormat(item, "npm") && KeyedByAttributes(item) ==>
      ArtifactKey(item) == Attribute(item, "npm", "name")
    ensures IsFormat(item, "nuget") && KeyedByAttributes(item) ==>
      ArtifactKey(item) == Attribute(item, "nuget", "id")
    ensures !KeyedByAttributes(item) ==> ArtifactKey(item) == PathKey(item.path, item.id)
  {
  }

  /** Two maven2 items with the same coordinates share their key whatever their
      versions and paths: the key names the artifact, not a version of it. */
  lemma MavenVersionsShareKey(a: Item, b: Item)
    requires IsFormat(a, "maven2") && IsFormat(b, "maven2")
    requires Attribute(a, "maven2", "groupId").Some? && Attribute(a, "maven2", "artifactId").Some?
    requires Attribute(a, "maven2", "groupId") == Attribute(b, "maven2", "groupId")
    requires Attribute(a, "maven2", "artifactId") == Attribute(b, "maven2", "artifactId")
    ensures ArtifactKey(a) == ArtifactKey(b)
  {
  }

  /** For a file `name` in directory `dir`, the path-based key is `dir`: every
      version file of one directory is grouped under the same key. */
  lemma PathKeyOfFile(dir: string, name: string, id: Option<string>)
    requires name != "" && '/' !in name
    ensures PathKey(Some(dir + "/" + name), id) == Some(dir)
  {
    var path := dir + "/" + name;
    assert path[|dir|] == '/';
    SplitFile(dir, name);
    var parts := Pieces(dir) + [name];
    assert parts[..|parts| - 1] == Pieces(dir);
    JoinPieces(dir);
  }

  /** Whenever the fallback removes a segment, the path is the key, "/", the
      removed last segment (non-empty, without '/'), then only separators. */
  lemma PathKeyIsParent(path: string, id: Option<string>)
    requires '/' in path && |Split(path)| > 1
    ensures var parts := Split(path);
      var last := parts[|parts| - 1];
      && last != "" && '/' !in last
      && PathKey(Some(path), id) == Some(Join(parts[..|parts| - 1]))
      && exists m: nat :: path == Join(parts[..|parts| - 1]) + "/" + last + Slashes(m)
  {
    SplitRebuilds(path);
  }

  // ---------------------------------------------------------------------------
  // getVersion

  /** The characters Java's `.` does not match without DOTALL. */
  predicate IsLineTerminator(c: char) {
    c == '\n' || c == '\r' || c == '\U{85}' || c == '\U{2028}' || c == '\U{2029}'
  }

  /** `f.matches(".*\\d+\\.\\d+.*")`: no line terminator, and somewhere a digit,
      a dot and a digit in a row. */
  predicate LooksVersioned(f: string) {
    && (forall i :: 0 <= i < |f| ==> !IsLineTerminator(f[i]))
    && exists i | 1 <= i < |f| - 1 :: IsDigit(f[i - 1]) && f[i] == '.' && IsDigit(f[i + 1])
  }

  /** The version attribute of the item's format branch, if that branch applies. */
  function VersionAttribute(item: Item): Option<string> {
    if IsFormat(item, "maven2") && Attribute(item, "maven2", "version").Some? then
      Attribute(item, "maven2", "version")
    else if IsFormat(item, "npm") && Attribute(item, "npm", "version").Some? then
      Attribute(item, "npm", "version")
    else if IsFormat(item, "nuget") && Attribute(item, "nuget", "version").Some? then
      Attribute(item, "nuget", "version")
    else None
  }

  /** `Item.getVersion`: the format's version attribute; else the last path
      segment when it looks like a version; else `String.valueOf(lastUpdated)`. */
  function Version(item: Item): string {
    if VersionAttribute(item).Some? then VersionAttribute(item).value
    else if item.path.Some? && '/' in item.path.value && |Split(item.path.value)| > 0
            && LooksVersioned(Split(item.path.value)[|Split(item.path.value)| - 1]) then
      Split(item.path.value)[|Split(item.path.value)| - 1]
    else LongToString(item.lastUpdated)
  }

  /** Where the version comes from: the format attribute when present; otherwise
      either a last path segment that looks like a version (so never containing
      '/'), or the decimal text of `lastUpdated`. */
  lemma VersionSources(item: Item)
    ensures VersionAttribute(item).Some? ==> Version(item) == VersionAttribute(item).value
    ensures VersionAttribute(item).None? ==>
      || (item.path.Some? && '/' in item.path.value && '/' !in Version(item) && LooksVersioned(Version(item)))
      || Version(item) == LongToString(item.lastUpdated)
  {
  }

  /** When neither the attributes nor the path name a version, the version text
      parses back to the item's `lastUpdated`. */
  lemma VersionFallsBackToTimestamp(item: Item)
    requires VersionAttribute(item).None?
    requires item.path.None? || '/' !in item.path.value
    ensures var v := Version(item);
      |v| >= 1 && ((v[0] == '-' && |v| >= 2 && AllDigits(v[1..])) || AllDigits(v))
      && ParseLong(v) == item.lastUpdated
  {
    LongToStringRoundTrip(item.lastUpdated);
  }

  /** An item without format attributes stored as `dir/name`, where `name`
      looks like a version, has key `dir` and version `name`: key, "/" and
      version give the path back. */
  lemma KeyAndVersionRebuildPath(item: Item, dir: string, name: string)
    requires !KeyedByAttributes(item) && VersionAttribute(item).None?
    requires name != "" && '/' !in name && LooksVersioned(name)
    requires item.path == Some(dir + "/" + name)
    ensures ArtifactKey(item) == Some(dir)
    ensures Version(item) == name
    ensures item.path == Some(ArtifactKey(item).value + "/" + Version(item))
  {
    PathKeyOfFile(dir, name, item.id);
    var path := dir + "/" + name;
    assert path[|dir|] == '/';
    SplitFile(dir, name);
  }
}

=== FILE: java_strings.dfy ===
/** The parts of java.lang.String the exporter relies on, on `seq<char>`:
    prefix/suffix/substring tests, `toLowerCase`, `split("/")` and
    `String.join("/", ...)`, and `String.valueOf(long)`. */
module JavaStrings {

  predicate StartsWith(s: string, prefix: string) {
    |prefix| <= |s| && s[..|prefix|] == prefix
  }

  predicate EndsWith(s: string, suffix: string) {
    |suffix| <= |s| && s[|s| - |suffix|..] == suffix
  }

  /** The one- and two-separator prefix tests read the first characters. */
  lemma StartsWithSlashes(s: string)
    ensures StartsWith(s, "/") <==> |s| >= 1 && s[0] == '/'
    ensures StartsWith(s, "//") <==> |s| >= 2 && s[0] == '/' && s[1] == '/'
  {
    if |s| >= 1 {
      assert s[..1] == [s[0]];
    }
    if |s| >= 2 {
      assert s[..2] == [s[0], s[1]];
    }
  }

  /** `part` occurs in `s` starting at index `i`. */
  predicate OccursAt(s: string, part: string, i: int) {
    0 <= i && i + |part| <= |s| && s[i..i + |part|] == part
  }

  /** `s.contains(part)`. */
  predicate Contains(s: string, part: string) {
    exists i | 0 <= i <= |s| :: OccursAt(s, part, i)
  }

  /** A string that ends with `a + b` also ends with `b`. */
  lemma EndsWithLonger(s: string, a: string, b: string)
    requires EndsWith(s, a + b)
    ensures EndsWith(s, b)
  {
    assert s[|s| - |b|..] == s[|s| - |a + b|..][|a|..];
  }

  // ---------------------------------------------------------------------------
  // Case folding

  /** Lower-cases the ASCII letters and leaves every other character alone. */
  function LowerChar(c: char): char {
    if 'A' <= c <= 'Z' then (c as int + 32) as char else c
  }

  /** `toLowerCase()` on ASCII letters (see the README for why this suffices here). */
  function Lower(s: string): (r: string)
    ensures |r| == |s|
    ensures forall i :: 0 <= i < |s| ==> r[i] == LowerChar(s[i])
  {
    seq(|s|, i requires 0 <= i < |s| => LowerChar(s[i]))
  }

  // ---------------------------------------------------------------------------
  // split("/") and String.join("/", ...)

  /** All pieces of `s` between '/' characters: n + 1 pieces for n separators. */
  function Pieces(s: string): (r: seq<string>)
    ensures |r| >= 1
    ensures forall i :: 0 <= i < |r| ==> '/' !in r[i]
  {
    if |s| == 0 then [""]
    else
      var rest := Pieces(s[1..]);
      if s[0] == '/' then [""] + rest
      else [[s[0]] + rest[0]] + rest[1..]
  }

  /** `String.join("/", parts)`. */
  function Join(parts: seq<string>): string {
    if |parts| == 0 then ""
    else if |parts| == 1 then parts[0]
    else parts[0] + "/" + Join(parts[1..])
  }

  /** Drops the trailing empty strings, as `split` does with limit 0. */
  function DropTrailingEmpty(parts: seq<string>): (r: seq<string>)
    ensures |r| <= |parts| && r == parts[..|r|]
    ensures |r| > 0 ==> r[|r| - 1] != ""
    ensures forall i :: |r| <= i < |parts| ==> parts[i] == ""
  {
    if |parts| > 0 && parts[|parts| - 1] == "" then DropTrailingEmpty(parts[..|parts| - 1])
    else parts
  }

  /** `s.split("/")`: the whole string when there is no separator, otherwise the
      pieces with trailing empty strings removed (a leading '/' yields a leading ""). */
  function Split(s: string): (r: seq<string>)
    ensures forall i :: 0 <= i < |r| ==> '/' !in r[i]
    ensures '/' in s && |r| > 0 ==> r[|r| - 1] != ""
  {
    if '/' !in s then [s] else DropTrailingEmpty(Pieces(s))
  }

  /** `n` separators in a row. */
  function Slashes(n: nat): (r: string)
    ensures |r| == n && forall i :: 0 <= i < n ==> r[i] == '/'
  {
    if n == 0 then "" else Slashes(n - 1) + "/"
  }

  function Empties(n: nat): (r: seq<string>)
    ensures |r| == n && forall i :: 0 <= i < n ==> r[i] == ""
  {
    if n == 0 then [] else Empties(n - 1) + [""]
  }

  /** Joining the pieces of a string gives the string back. */
  lemma {:induction false} JoinPieces(s: string)
    ensures Join(Pieces(s)) == s
    decreases |s|
  {
    if |s| > 0 {
      var rest := Pieces(s[1..]);
      JoinPieces(s[1..]);
      if s[0] == '/' {
        assert ([""] + rest)[1..] == rest;
      } else {
        var r := [[s[0]] + rest[0]] + rest[1..];
        if |rest| > 1 {
          assert r[1..] == rest[1..];
          assert Join(rest) == rest[0] + "/" + Join(rest[1..]);
        }
        assert s == [s[0]] + s[1..];
      }
    }
  }

  /** A string without separators is its own single piece. */
  lemma {:induction false} PiecesOfName(f: string)
    requires '/' !in f
    ensures Pieces(f) == [f]
    decreases |f|
  {
    if |f| > 0 {
      PiecesOfName(f[1..]);
      assert f == [f[0]] + f[1..];
    }
  }

  /** The pieces of a string after its first character. */
  lemma PiecesCons(c: char, t: string)
    ensures Pieces([c] + t) ==
      if c == '/' then [""] + Pieces(t) else [[c] + Pieces(t)[0]] + Pieces(t)[1..]
  {
    assert ([c] + t)[1..] == t;
  }

  /** One character in front of `rest` keeps the pieces of `rest + "/" + b`
      split as the pieces of `rest`, then those of `b`. */
  lemma PiecesConcatStep(c: char, rest: string, b: string)
    requires Pieces(rest + "/" + b) == Pieces(rest) + Pieces(b)
    ensures Pieces([c] + rest + "/" + b) == Pieces([c] + rest) + Pieces(b)
  {
    var t := rest + "/" + b;
    assert [c] + rest + "/" + b == [c] + t;
    PiecesCons(c, t);
    PiecesCons(c, rest);
    FirstPieceExtends(c, Pieces(rest), Pieces(b), Pieces(t));
  }

  /** Sequence bookkeeping of `PiecesConcatStep`, on plain piece lists. */
  lemma FirstPieceExtends(c: char, pa: seq<string>, pb: seq<string>, pt: seq<string>)
    requires |pa| >= 1 && pt == pa + pb
    ensures [[c] + pt[0]] + pt[1..] == ([[c] + pa[0]] + pa[1..]) + pb
    ensures [""] + pt == ([""] + pa) + pb
  {
    assert pt[1..] == pa[1..] + pb;
  }

  /** Pieces of `a + "/" + b` are the pieces of `a` followed by those of `b`. */
  lemma {:induction false} PiecesConcat(a: string, b: string)
    ensures Pieces(a + "/" + b) == Pieces(a) + Pieces(b)
    decreases |a|
  {
    if |a| == 0 {
      assert a + "/" + b == ['/'] + b;
      PiecesCons('/', b);
    } else {
      PiecesConcat(a[1..], b);
      PiecesConcatStep(a[0], a[1..], b);
      assert [a[0]] + a[1..] == a;
    }
  }

  /** Appending one more name to a non-empty list adds "/" and the name. */
  lemma {:induction false} JoinSnoc(parts: seq<string>, x: string)
    requires |parts| >= 1
    ensures Join(parts + [x]) == Join(parts) + "/" + x
    decreases |parts|
  {
    if |parts| > 1 {
      assert (parts + [x])[1..] == parts[1..] + [x];
      JoinSnoc(parts[1..], x);
    }
  }

  /** Trailing empty names become trailing separators. */
  lemma {:induction false} JoinEmpties(parts: seq<string>, n: nat)
    requires |parts| >= 1
    ensures Join(parts + Empties(n)) == Join(parts) + Slashes(n)
    decreases n
  {
    if n > 0 {
      var longer := parts + Empties(n - 1);
      assert parts + Empties(n) == longer + [""];
      JoinEmpties(parts, n - 1);
      JoinSnoc(longer, "");
      assert Join(longer) + "/" + "" == Join(parts) + Slashes(n - 1) + "/";
    } else {
      assert parts + Empties(n) == parts;
    }
  }

  lemma PiecesAreSplitPlusEmpties(pieces: seq<string>)
    ensures pieces == DropTrailingEmpty(pieces) + Empties(|pieces| - |DropTrailingEmpty(pieces)|)
  {
    var parts := DropTrailingEmpty(pieces);
    var tail := Empties(|pieces| - |parts|);
    assert forall i :: 0 <= i < |pieces| ==> pieces[i] == (parts + tail)[i];
  }

  /** Joining all names is joining all but the last, then "/" and the last. */
  lemma JoinInitLast(parts: seq<string>)
    requires |parts| >= 2
    ensures Join(parts) == Join(parts[..|parts| - 1]) + "/" + parts[|parts| - 1]
  {
    var init := parts[..|parts| - 1];
    assert parts == init + [parts[|parts| - 1]];
    JoinSnoc(init, parts[|parts| - 1]);
  }

  /** A path with a separator and at least two split parts is the join of all
      but its last part, then "/", the last part and the separators `split` dropped. */
  lemma SplitRebuilds(s: string)
    requires '/' in s && |Split(s)| > 1
    ensures var parts := Split(s);
      s == Join(parts[..|parts| - 1]) + "/" + parts[|parts| - 1] + Slashes(|Pieces(s)| - |parts|)
  {
    var pieces := Pieces(s);
    var parts := DropTrailingEmpty(pieces);
    var m := |pieces| - |parts|;
    PiecesAreSplitPlusEmpties(pieces);
    JoinPieces(s);
    JoinEmpties(parts, m);
    JoinInitLast(parts);
  }

  /** Joining `k` empty names gives `k - 1` separators. */
  lemma {:induction false} JoinOnlyEmpties(k: nat)
    requires k >= 1
    ensures Join(Empties(k)) == Slashes(k - 1)
    decreases k
  {
    if k > 1 {
      JoinOnlyEmpties(k - 1);
      JoinSnoc(Empties(k - 1), "");
      assert Empties(k) == Empties(k - 1) + [""];
    }
  }

  /** Every string is rebuilt from its `split("/")` result: a string without
      separators is its own single part; otherwise joining the parts and
      appending the separators that trailing empty pieces stood for gives the
      string back (a string of separators only splits into no parts at all). */
  lemma SplitJoinRebuilds(s: string)
    ensures '/' !in s ==> Split(s) == [s]
    ensures '/' in s ==> s == Join(Split(s)) + Slashes(|Pieces(s)| - |Split(s)| - (if Split(s) == [] then 1 else 0))
  {
    if '/' in s {
      JoinPieces(s);
      PiecesRebuild(Pieces(s));
    }
  }

  /** Joining pieces equals joining them without their trailing empty strings,
      then one separator per dropped piece (one fewer when none is left). */
  lemma PiecesRebuild(pieces: seq<string>)
    requires |pieces| >= 1
    ensures var parts := DropTrailingEmpty(pieces);
      Join(pieces) == Join(parts) + Slashes(|pieces| - |parts| - (if parts == [] then 1 else 0))
  {
    var parts := DropTrailingEmpty(pieces);
    var m := |pieces| - |parts|;
    PiecesAreSplitPlusEmpties(pieces);
    if parts == [] {
      assert pieces == Empties(m);
      JoinOnlyEmpties(m);
    } else {
      JoinEmpties(parts, m);
    }
  }

  /** Splitting `dir + "/" + name` for a non-empty file name yields the pieces of
      `dir` and then the name. */
  lemma SplitFile(dir: string, name: string)
    requires name != "" && '/' !in name
    ensures Split(dir + "/" + name) == Pieces(dir) + [name]
  {
    var s := dir + "/" + name;
    assert s[|dir|] == '/';
    PiecesConcat(dir, name);
    PiecesOfName(name);
  }

  // ---------------------------------------------------------------------------
  // Decimal text of a long

  predicate IsDigit(c: char) {
    '0' <= c <= '9'
  }

  predicate AllDigits(s: string) {
    forall i :: 0 <= i < |s| ==> IsDigit(s[i])
  }

  function DigitChar(d: nat): (c: char)
    requires d < 10
    ensures IsDigit(c)
  {
    ('0' as int + d) as char
  }

  function DigitValue(c: char): (d: nat)
    requires IsDigit(c)
    ensures d < 10
  {
    c as int - '0' as int
  }

  /** The decimal digits of a natural number, most significant first. */
  function NatToDecimal(n: nat): (r: string)
    ensures |r| >= 1 && AllDigits(r)
  {
    if n < 10 then [DigitChar(n)] else NatToDecimal(n / 10) + [DigitChar(n % 10)]
  }

  /** `String.valueOf(long)`: a '-' sign for negatives, then the digits. */
  function LongToString(n: int): string {
    if n < 0 then "-" + NatToDecimal(-n) else NatToDecimal(n)
  }

  function ParseDigits(s: string): nat
    requires |s| >= 1 && AllDigits(s)
  {
    if |s| == 1 then DigitValue(s[0])
    else 10 * ParseDigits(s[..|s| - 1]) + DigitValue(s[|s| - 1])
  }

  /** `Long.parseLong` on the strings `LongToString` produces. */
  function ParseLong(s: string): int
    requires |s| >= 1
    requires (s[0] == '-' && |s| >= 2 && AllDigits(s[1..])) || AllDigits(s)
  {
    if s[0] == '-' then -(ParseDigits(s[1..]) as int) else ParseDigits(s)
  }

  lemma {:induction false} ParseNatToDecimal(n: nat)
    ensures ParseDigits(NatToDecimal(n)) == n
  {
    if n >= 10 {
      var r := NatToDecimal(n);
      ParseNatToDecimal(n / 10);
      assert r[..|r| - 1] == NatToDecimal(n / 10);
    }
  }

  /** `Long.parseLong(String.valueOf(n)) == n`. */
  lemma LongToStringRoundTrip(n: int)
    ensures var s := LongToString(n);
      |s| >= 1 && ((s[0] == '-' && |s| >= 2 && AllDigits(s[1..])) || AllDigits(s))
      && ParseLong(s) == n
  {
    if n < 0 {
      var s := LongToString(n);
      assert s[1..] == NatToDecimal(-n);
      ParseNatToDecimal(-n);
    } else {
      ParseNatToDecimal(n);
    }
  }
}

=== FILE: unix_paths.dfy ===
/** The slice of java.nio.file on a Unix file system that the download task
    uses to place an asset under the export directory: `Paths.get`,
    `normalize`, `resolve`, and the rule that forces an absolute asset path
    to a relative one. */
module UnixPaths {
  import opened JavaStrings

  /** A parsed path: absolute or not, and its names (never empty, never holding '/'). */
  datatype Path = Path(absolute: bool, names: seq<string>)

  function NonEmpty(pieces: seq<string>): (r: seq<string>)
    ensures forall i :: 0 <= i < |r| ==> r[i] != "" && r[i] in pieces
    ensures forall i :: 0 <= i < |pieces| && pieces[i] != "" ==> pieces[i] in r
  {
    if pieces == [] then []
    else (if pieces[0] == "" then [] else [pieces[0]]) + NonEmpty(pieces[1..])
  }

  /** `Paths.get(s)`: redundant and trailing separators disappear. */
  function Parse(s: string): (p: Path)
    ensures p.absolute <==> StartsWith(s, "/")
    ensures WellFormed(p)
  {
    Path(|s| > 0 && s[0] == '/', NonEmpty(Pieces(s)))
  }

  predicate WellFormed(p: Path) {
    forall i :: 0 <= i < |p.names| ==> p.names[i] != "" && '/' !in p.names[i]
  }

  /** What `normalize` returns: no "." names, ".." only at the front of a
      relative path and nowhere in an absolute one. */
  predicate IsNormal(p: Path) {
    && WellFormed(p)
    && (forall i :: 0 <= i < |p.names| ==> p.names[i] != ".")
    && (p.absolute ==> forall i :: 0 <= i < |p.names| ==> p.names[i] != "..")
    && (forall i, j :: 0 <= i < j < |p.names| && p.names[j] == ".." ==> p.names[i] == "..")
  }

  /** One name of `normalize`: "." vanishes, ".." cancels the previous proper
      name, is dropped at the root of an absolute path, and is kept otherwise. */
  function NormalStep(absolute: bool, acc: seq<string>, name: string): seq<string> {
    if name == "." then acc
    else if name == ".." then
      if |acc| > 0 && acc[|acc| - 1] != ".." then acc[..|acc| - 1]
      else if absolute then acc
      else acc + [".."]
    else acc + [name]
  }

  function NormalizeFrom(absolute: bool, acc: seq<string>, names: seq<string>): seq<string>
    decreases |names|
  {
    if names == [] then acc
    else NormalizeFrom(absolute, NormalStep(absolute, acc, names[0]), names[1..])
  }

  /** `Path.normalize()`. */
  function Normalize(p: Path): Path {
    Path(p.absolute, NormalizeFrom(p.absolute, [], p.names))
  }

  /** `base.resolve(other)`: an absolute `other` wins, an empty one gives `base`. */
  function Resolve(base: Path, other: Path): Path {
    if other.absolute then other
    else if other.names == [] then base
    else Path(base.absolute, base.names + other.names)
  }

  lemma {:induction false} NormalStepKeepsNormal(absolute: bool, acc: seq<string>, name: string)
    requires IsNormal(Path(absolute, acc))
    requires name != "" && '/' !in name
    ensures IsNormal(Path(absolute, NormalStep(absolute, acc, name)))
  {
    var r := NormalStep(absolute, acc, name);
    if name == ".." && !(|acc| > 0 && acc[|acc| - 1] != "..") && !absolute {
      assert forall i :: 0 <= i < |acc| ==> acc[i] == "..";
      assert forall i :: 0 <= i < |r| ==> r[i] == "..";
    }
  }

  lemma {:induction false} NormalizeFromIsNormal(absolute: bool, acc: seq<string>, names: seq<string>)
    requires IsNormal(Path(absolute, acc))
    requires WellFormed(Path(absolute, names))
    ensures IsNormal(Path(absolute, NormalizeFrom(absolute, acc, names)))
    decreases |names|
  {
    if names != [] {
      NormalStepKeepsNormal(absolute, acc, names[0]);
      NormalizeFromIsNormal(absolute, NormalStep(absolute, acc, names[0]), names[1..]);
    }
  }

  lemma {:induction false} NormalizeFromOfNormal(absolute: bool, acc: seq<string>, names: seq<string>)
    requires IsNormal(Path(absolute, acc + names))
    ensures NormalizeFrom(absolute, acc, names) == acc + names
    decreases |names|
  {
    if names != [] {
      var all := acc + names;
      assert all[|acc|] == names[0];
      assert forall i :: 0 <= i < |acc| ==> all[i] == acc[i];
      assert names[0] != ".";
      if names[0] == ".." {
        assert !absolute;
        assert forall i :: 0 <= i < |acc| ==> acc[i] == "..";
      }
      assert NormalStep(absolute, acc, names[0]) == acc + [names[0]];
      assert (acc + [names[0]]) + names[1..] == all;
      NormalizeFromOfNormal(absolute, acc + [names[0]], names[1..]);
    }
  }

  /** `normalize` produces a normal path and leaves a normal path unchanged,
      so normalizing twice is normalizing once. */
  lemma NormalizeIsNormalAndIdempotent(p: Path)
    requires WellFormed(p)
    ensures Normalize(p).absolute == p.absolute
    ensures IsNormal(Normalize(p))
    ensures IsNormal(p) ==> Normalize(p) == p
    ensures Normalize(Normalize(p)) == Normalize(p)
  {
    NormalizeFromIsNormal(p.absolute, [], p.names);
    NormalizeFromOfNormal(p.absolute, [], Normalize(p).names);
    assert [] + Normalize(p).names == Normalize(p).names;
    if IsNormal(p) {
      NormalizeFromOfNormal(p.absolute, [], p.names);
      assert [] + p.names == p.names;
    }
  }

  /** The path `.`, against which a stripped absolute path is resolved. */
  const Dot := Path(false, ["."])

  /** `DownloadItemTask`'s placement of an asset path, as written: the path is
      normalized; if that is absolute, its first character is dropped and the
      rest is resolved against "." and normalized. */
  function ForceRelative(itemPath: string): Path {
    var p := Normalize(Parse(itemPath));
    if p.absolute then Normalize(Resolve(Dot, Parse(itemPath[1..]))) else p
  }

  /** The asset's location under the export directory `root`. */
  function AssetLocation(root: Path, itemPath: string): Path {
    Resolve(root, ForceRelative(itemPath))
  }

  /** A leading "." disappears under `normalize`. */
  lemma NormalizeDropsLeadingDot(names: seq<string>)
    ensures NormalizeFrom(false, [], ["."] + names) == NormalizeFrom(false, [], names)
  {
    assert (["."] + names)[1..] == names;
  }

  /** As written, the forced path stays absolute exactly when the asset path
      starts with two separators; a relative asset path is only normalized. */
  lemma ForceRelativeAbsoluteIff(itemPath: string)
    ensures ForceRelative(itemPath).absolute <==> StartsWith(itemPath, "//")
    ensures !StartsWith(itemPath, "/") ==> ForceRelative(itemPath) == Normalize(Parse(itemPath))
  {
    StartsWithSlashes(itemPath);
    if StartsWith(itemPath, "/") {
      var rest := itemPath[1..];
      StartsWithSlashes(rest);
      assert StartsWith(rest, "/") <==> StartsWith(itemPath, "//");
    }
  }

  /** `split("/")` of "//name" gives two empty pieces, then the name. */
  lemma PiecesOfDoubleSlash(name: string)
    requires name != "" && '/' !in name
    ensures Pieces("//" + name) == ["", "", name]
  {
    PiecesOfName(name);
    assert ("//" + name)[1..] == "/" + name;
    assert ("/" + name)[1..] == name;
  }

  /** `Paths.get("//etc")` and `Paths.get("/etc")` both give the absolute "/etc". */
  lemma ParseEtc()
    ensures Parse("//etc") == Path(true, ["etc"])
    ensures Parse("/etc") == Path(true, ["etc"])
  {
    assert "//etc" == "//" + "etc";
    PiecesOfDoubleSlash("etc");
    assert NonEmpty(["", "", "etc"]) == ["etc"] by {
      assert ["", "", "etc"][1..] == ["", "etc"];
      assert ["", "etc"][1..] == ["etc"];
    }
    assert "/etc" == ("//etc")[1..];
    assert Pieces("/etc") == ["", "etc"];
    assert NonEmpty(["", "etc"]) == ["etc"] by {
      assert ["", "etc"][1..] == ["etc"];
    }
  }

  /** The path "//etc" is forced to the absolute "/etc", which `resolve` then
      returns unchanged: the asset is placed outside the export directory. */
  lemma {:induction false} DoubleSlashEscapesRoot(root: Path)
    ensures ForceRelative("//etc") == Path(true, ["etc"])
    ensures AssetLocation(root, "//etc") == Path(true, ["etc"])
  {
    var p := Path(true, ["etc"]);
    ParseEtc();
    assert IsNormal(p);
    NormalizeIsNormalAndIdempotent(p);
    assert ("//etc")[1..] == "/etc";
  }

  // ---------------------------------------------------------------------------
  // Corrected rule

  /** The asset path without any of its leading separators. */
  function StripLeadingSlashes(s: string): (r: string)
    ensures !StartsWith(r, "/")
    ensures |s| > 0 && s[0] == '/' && !StartsWith(s[1..], "/") ==> r == s[1..]
    ensures !StartsWith(s, "/") ==> r == s
    decreases |s|
  {
    if |s| > 0 && s[0] == '/' then StripLeadingSlashes(s[1..]) else s
  }

  /** The placement rule as evidently intended: every leading separator is
      dropped, so the result is always relative and resolving it extends the
      export directory. For asset paths that do not start with "//" it agrees
      with the rule as written. */
  function ForceRelativeFixed(itemPath: string): (r: Path)
    ensures !r.absolute && IsNormal(r)
    ensures !StartsWith(itemPath, "//") ==> r == ForceRelative(itemPath)
  {
    var stripped := StripLeadingSlashes(itemPath);
    NormalizeIsNormalAndIdempotent(Parse(stripped));
    if !StartsWith(itemPath, "//") then StrippingAgreesWithAsWritten(itemPath); Normalize(Parse(stripped))
    else Normalize(Parse(stripped))
  }

  /** The asset's location under the export directory by the corrected rule:
      the directory followed by the asset's normalized names, so never outside
      it lexically; it agrees with the rule as written unless the asset path
      starts with "//". */
  function AssetLocationFixed(root: Path, itemPath: string): (loc: Path)
    ensures loc.absolute == root.absolute
    ensures loc.names == root.names + ForceRelativeFixed(itemPath).names
    ensures !StartsWith(itemPath, "//") ==> loc == AssetLocation(root, itemPath)
  {
    Resolve(root, ForceRelativeFixed(itemPath))
  }

  lemma StrippingAgreesWithAsWritten(itemPath: string)
    requires !StartsWith(itemPath, "//")
    ensures Normalize(Parse(StripLeadingSlashes(itemPath))) == ForceRelative(itemPath)
  {
    if StartsWith(itemPath, "/") {
      var rest := itemPath[1..];
      assert !StartsWith(rest, "/");
      NormalizeDropsLeadingDot(Parse(rest).names);
    }
  }
}
